=== FILE: README.md ===
# goapt/redis, modelled in Dafny

A model of the logic in the goapt/redis package, a thin layer over the go-redis client.
It has three parts.

- **Struct ⇄ hash marshaling** (`scan.go`):
  - `structToMapInterface` turns a struct into the map that `HMSet` writes, keyed by each field's `db` tag. A `time.Time` is rendered in the layout `2006-01-02 15:04:05`.
  - `scanStruct` decodes a hash back into a struct. It uses mapstructure with the `db` tag, weak typing and `DecodeHook`.
  - `DecodeHook` turns a string bound for a time into a time. It tries the binary encoding first. After that it tries RFC 3339 (section 5.6 of RFC 3339) when the string contains a `T`, and the fixed layout otherwise. Text is parsed in `Asia/Shanghai`.
- **The named-client registry** (`redis.go`):
  - `Connect` empties the registry. It then builds and probes one client per configuration. A failed probe appends its message to the package-level error list; a successful one installs the client under its name. `Connect` ends fatally when the error list is non-empty.
  - `Client` looks a client up by name.
  - `newRedis` translates a configuration into go-redis options.
- **The wrapper type `Redis`** (`client.go`):
  - the methods that decide something over the backend's replies: `HGetAllMap`, `HGetAll`, `HMSet`, `hMSet`, `Set` and `Exists`;
  - `NewRedisWithName`;
  - the expiry constants.

Modules:

- `Results` (`results.dfy`): `Option`, `Result` and the package's errors. `log.Fatal` and `panic` are modelled as error values.
- `Numerals` (`numerals.dfy`): decimal rendering as Go's time formatter and `strconv.FormatInt` do it, and `strconv.ParseInt(s, 0, 64)`. `FormatParseInt` proves the two round-trip for every 64-bit integer.
- `TimeLayout` (`time_layout.dfy`): `Time.Format` and `time.ParseInLocation` for the one layout the package fixes. It is written step by step, as Go's parser consumes the value. Round trips are proved in both directions:
  - `FormatThenParse`: time → string → time, truncated to the second;
  - `ParseThenFormat`: string → time → string, exactly for canonical strings.
- `Scan` (`scan.dfy`): `scan.go`. The main property is the struct → hash → struct round trip, `EncodeDecodeRoundTrip`.
- `Registry` (`registry.dfy`): `redis.go`. The registry is a class holding the two globals, and `Connect` is a loop proved against specification functions.
- `Wrapper` (`client.dfy`): `client.go`. The backend is a connection object that logs every command sent. An oracle answers each command and may depend on the commands sent before it.

Where the code and the usual reading of it differ, the model follows the code:

- `Connect` creates a new registry map. Clients installed by an earlier call are dropped without being closed. Inside one call, the branch that replaces and closes an existing entry can never run, because configuration names are distinct map keys. `Registry.ClientRegistry.Connect` asserts that this branch is unreachable.
- The client that `Connect` probes is not the one it installs. It builds a second, identical client, and the probed one is never closed.
- A `*time.Time` target has kind `Ptr`, not `Struct`, so the hook's own comparison against `"*time.Time"` is dead code: the hook never fires for that type (`Scan.PointerTargetPassesThrough`). How mapstructure itself handles a pointer field (it may decode through the element type, where the hook then sees `time.Time`) is outside this model.
- The encoder keys a field on its whole `db` tag (scan.go:61), while the decoder keys it on the part before the first comma. A tag with options such as `"id,omitempty"` is written under `id,omitempty` and read back from `id`, so such a field does not survive the round trip. This is why `Scan.WellTagged` asks for tags without commas.
- An empty or non-positive timeout in the configuration leaves go-redis's default, shown as 0. A configured timeout of 9223372037 seconds reaches the client as a negative duration (`Registry.OverflowingTimeout`). Larger values wrap modulo 2^64 and may come out positive: 18446744074 seconds becomes 290448384 ns, about 0.29 seconds (`Registry.SecondsWraps`).

## Model

| member | source | states |
|---|---|---|
| Scan.DecodeHook | scan.go:16-37 | Acts only when the source kind is string, the target kind is struct, and the target's type string is `time.Time` or `*time.Time`; otherwise returns the input unchanged. When it acts, a success is a time and a failure is a parse error carrying the string. |
| Scan.BinaryDecodingWins | scan.go:19-32 | A successful binary decoding is returned as is, and no text layout is tried. |
| Scan.TextLayoutChoice | scan.go:23-30 | After a failed binary decoding, a string containing `T` succeeds exactly when the RFC 3339 parse does, and yields its time. Any other string succeeds exactly when the fixed-layout parse does, and the result is in DefaultLocation. |
| Scan.PointerTargetPassesThrough | scan.go:17-18 | A `*time.Time` target is never hooked: a string bound for it comes back unchanged. |
| Scan.FixedLayoutPath | scan.go:23-30 | A string without `T` that is not binary decodes exactly to the fixed-layout parse in DefaultLocation, and otherwise to a parse error on that string. |
| Scan.DecodeFormatted | scan.go:23-32 | time → string → time through the hook: a formatted four-digit-year time decodes to the same wall clock, truncated to the second, in DefaultLocation. |
| Scan.DecodedFormatsBack | scan.go:23-32 | string → time → string: a canonical string that the hook decodes formats back to the same string. |
| Scan.ScanTestCreateTime | scan_test.go:119-135 | `"2015-03-18 18:20:28"` decodes to 2015-03-18 18:20:28 in Asia/Shanghai, and formats back to the same string. |
| Scan.FormatOf2015 | scan_test.go:131 | The test's time formats as `"2015-03-18 18:20:28"`. |
| Scan.EncodeTestTime | scan_test.go:137-153 | 2019-11-02 15:04:05 UTC is stored as `"2019-11-02 15:04:05"`. |
| Scan.FormatOf2019 | scan_test.go:139-150 | The test's time formats as `"2019-11-02 15:04:05"`. |
| Scan.Encode | scan.go:62-67 | The value stored for a field is never a time: a time becomes its layout string, and every other value is stored unchanged. |
| Scan.Stored | client.go:93 | The hash written for a map has the same keys, each holding the wire string of its value. |
| Scan.EncodedFields | scan.go:55-71 | The map built from a struct never holds a time: times have become their layout strings. |
| Scan.StructToMapInterface | scan.go:55-71 | The loop writes each field, in order, under its tag. A later field overwrites an earlier one with the same tag. The result is exactly the map the fields specify. |
| Scan.EncodedKeys | scan.go:58-61 | One entry per distinct tag: the keys are exactly the fields' tags, with a missing tag giving `""`. |
| Scan.EncodedLastWins | scan.go:61-67 | The entry under a tag is the encoded value of the last field with that tag: a time as its layout string, any other value unchanged. |
| Scan.BeforeCommaNoComma | scan.go:42 | A tag without a comma is its own decoder key. |
| Scan.DecodeValue | scan.go:40-45 | Decoding a hash string into a field keeps the field's type. A string field receives the string itself. An int field receives `strconv.ParseInt(s, 0, 64)`, with `""` read as `"0"`, and fails with an int-parse error exactly when that parse fails. A time field receives exactly what `DecodeHook` makes of the string. |
| Scan.DecodeWeakInts | scan.go:43 | Weak typing reads `""` as 0 and `"0x10"` as 16 in an int field. |
| Scan.DecodeDecimalIntoInt | scan_test.go:104-114 | With weak typing, the decimal rendering of any 64-bit integer fills an int field with that integer (for example `"123123"` gives 123123). |
| Scan.DecodeField | scan.go:39-53 | Decoding one field keeps its name, tag and type. A field whose key (its tag up to the first comma, or its name) is absent from the hash is left as it is with no error. A present key whose value decodes sets the field to that value with no error; one whose value fails leaves the field as it is and reports that failure. |
| Scan.ErrorsOf | scan.go:52 | The gathered errors are empty exactly when no field failed, and hold every failed field's error. |
| Scan.ErrorsOfAppend | scan.go:52 | Errors are gathered in field order: the errors of two runs of fields are the first run's followed by the second's. |
| Scan.Collect | scan.go:52 | Gathering the outcomes keeps each field as decoded, in position, and the error list is exactly the failed fields' errors in field order. |
| Scan.ScanFields | scan.go:39-53 | Every field is decoded independently: the field at position i is that field's own decoding. The error list is the failed fields' errors in field order, empty exactly when every field decoded without error. |
| Scan.ScanIgnoresOtherKeys | scan.go:39-53 | Fields are matched by key: two hashes that agree on every field's key decode alike, whatever other keys they hold. |
| Scan.DecodeStored | scan.go:40-67 | One value through the hash: its stored string decodes, into a zero value of its type, to the value itself. A time is truncated to the second and placed in DefaultLocation. |
| Scan.RoundTripField | scan.go:39-71 | In a well-tagged struct, each field's entry in the stored hash decodes back into that field without error. |
| Scan.EncodeDecodeRoundTrip | scan.go:39-71 | struct → hash → struct: scanStruct over the stored hash of a well-tagged struct, into a zero struct of the same shape, reproduces every field with no error. Times are truncated to the second and placed in DefaultLocation. |
| Scan.ScanStruct | scan.go:39-53 | scanStruct yields one field per destination field, each that field's own decoding. It reports no error exactly when every field decoded, and otherwise one `ErrDecode` holding the failed fields' errors in field order, at least one of them. |
| Scan.ScanAllDecoded | scan.go:52 | When every field decodes without error, scanStruct reports no error and returns the decoded fields. |
| TimeLayout.ParseInLocation | scan.go:27 | A successful parse of the fixed layout has the requested location and a four-digit year. |
| TimeLayout.FormatCanonical | scan.go:64 | Formatting a four-digit-year time gives the canonical 19-character shape, which spells the time back, truncated to the second. |
| TimeLayout.Format | scan.go:64 | The rendering has at least the layout's 19 characters, since every field is padded to its width. Its exact shape is stated by FormatIsLayout and FormatCanonical. |
| TimeLayout.FormatIsLayout | scan.go:64 | Each field of a four-digit-year time is rendered at exactly its layout width. |
| TimeLayout.ParseCanonical | scan.go:27 | A canonical string parses to the reading it spells exactly when that reading is a valid date and time. |
| TimeLayout.FormatThenParse | scan.go:23-27 | time → string → time: parsing a formatted time gives it back, truncated to the second, in the requested location. |
| TimeLayout.ParseThenFormat | scan.go:23-27 | string → time → string: a parsed value formats back to itself exactly when it is canonical (two-digit hour, one space, no fraction). |
| TimeLayout.FormatSpelled | scan.go:64 | A canonical string is the format of the reading it spells. |
| Numerals.FormatInt | client.go:93 | The decimal rendering is non-empty, starts with `-` exactly for a negative number, and is digits otherwise. |
| Numerals.ParseInt | scan.go:43 | The empty string is rejected. A negative result comes only from a leading `-`, and a leading `-` never gives a positive result. |
| Numerals.FormatParseInt | scan.go:43 | The weak int conversion, `strconv.ParseInt(s, 0, 64)`, reads the decimal rendering of every 64-bit integer back as that integer. |
| Registry.Split | redis.go:103 | Splitting on a separator gives one more piece than there are separators, and no piece contains the separator. |
| Registry.JoinSplit | redis.go:103 | Joining the pieces with the separator gives back the original address list. |
| Registry.Seconds | redis.go:113-115 | `time.Duration(n) * time.Second` is n·10^9 when that fits in 64 bits, and congruent to it modulo 2^64 otherwise. |
| Registry.SecondsWraps | redis.go:113-115 | 9223372036 seconds is exact; 9223372037 seconds wraps to a negative duration; 18446744074 seconds wraps back to a positive 290448384 ns. |
| Registry.Open | redis.go:48-59 | Open builds a direct client. |
| Registry.OpenSentinel | redis.go:62-66 | OpenSentinel builds a failover client. |
| Registry.NewRedis | redis.go:98-127 | newRedis builds a sentinel client exactly when a master name is configured, and otherwise a direct client whose address is the configured server. |
| Registry.NewRedisKind | redis.go:100-127 | A sentinel client is built exactly when a master name is configured, and it gets that name and the sentinel username and password. A direct client connects to the configured server. The sentinel address list has one more entry than there are commas, contains no commas, and joins back to the configured string. |
| Registry.NewRedisTuning | redis.go:106-145 | Password and DB are always copied. Retries and timeouts override the library default (0) only when greater than 0. A positive timeout becomes `Seconds` of it: exactly that many seconds when the product fits, and the 64-bit wrap of the product otherwise. |
| Registry.OverflowingTimeout | redis.go:113-115 | A configured dial timeout of 9223372037 seconds reaches the client as a negative duration. |
| Registry.ClientRegistry.Connect | redis.go:68-95 | Afterwards the registry holds exactly the configurations whose probe succeeded, each as newRedis builds it. The error list is the old one followed by one message per failed probe, in visiting order. The outcome is fatal, with the messages joined by newlines, exactly when the error list is non-empty, including messages left from earlier calls. |
| Registry.InstalledStep | redis.go:80-93 | Visiting a name installs its client exactly when the probe succeeds, and otherwise leaves the registry unchanged. |
| Registry.FailureStep | redis.go:80-84 | Visiting a name appends its probe's message, if any, to the error list. |
| Registry.AppendFailuresKeeps | redis.go:82 | The error list is never cleared: earlier messages stay in front of the new ones. |
| Registry.NoFailuresIff | redis.go:69-84 | The error list gains nothing exactly when every probe succeeded. |
| Registry.NoFailuresFromEmpty | redis.go:80-84 | Starting from no errors, none are recorded exactly when every probe succeeded. |
| Registry.FailureRecorded | redis.go:80-84 | Every failed probe's message ends up in the error list. |
| Registry.ClientRegistry.Client | redis.go:33-45 | The lookup succeeds exactly when the key is present, and then yields that entry. Otherwise it is the "not configured" error for the key. |
| Registry.ClientFirstNameOnly | redis.go:34-37 | No name means `"default"`, and only the first name given is looked up. |
| Registry.ClientAfterConnect | redis.go:75-93 | After Connect, a lookup succeeds exactly for a configured name whose probe succeeded, and yields newRedis of its configuration. |
| Wrapper.TTLRelations | client.go:12-17 | A week is 7 days, a day 24 hours, an hour 60 minutes and a minute 60 seconds. All of them fit in a Duration. |
| Wrapper.NoDataRule | client.go:54-60 | An empty fetched hash yields (nil, ErrNoData) whatever the library's error, and that pair arises only then. A non-empty hash is returned together with the library's error. |
| Wrapper.Redis.HGetAllMap | client.go:54-60 | Sends HGETALL and returns what the no-data rule makes of the reply. |
| Wrapper.HGetAllOf | client.go:46-52 | When HGetAllMap reports an error, the destination is untouched and that error is returned. Otherwise the result is scanStruct of the hash into the destination. |
| Wrapper.Redis.HGetAll | client.go:46-52 | Sends HGETALL and returns what HGetAllOf makes of the reply. |
| Wrapper.Normalize | client.go:63-89 | A struct or pointer to struct becomes exactly the map structToMapInterface builds (`Scan.EncodedFields`): keyed by its tags, holding no times. A `map[string]interface{}` is used as is. A `map[string]string` keeps its keys and strings. Any other map, or a pointer to a map, is the "must be map" error. Any other kind is "cannot convert from" with the dereferenced type's name. |
| Wrapper.StringValues | client.go:80-83 | The copied map has the same keys and the same strings. |
| Wrapper.CopyStrings | client.go:80-83 | The range loop produces exactly that copy. |
| Wrapper.Redis.HMSet | client.go:63-89 | A rejected argument sends nothing and returns its error. Otherwise the normalised map goes to hMSet. |
| Wrapper.WriteCommands | client.go:92-98 | The write is sent first. `Expire(key, CACHE_DAY_TTL)` follows exactly when the write succeeded. |
| Wrapper.WriteError | client.go:92-98 | The error is the write's when the write failed, and otherwise the expiry's. |
| Wrapper.Redis.WriteWithExpiry | client.go:92-98 | hMSet sends exactly WriteCommands and returns WriteError. |
| Wrapper.Redis.Set | client.go:150-153 | Set always stores with an expiry of CACHE_DAY_TTL (86400 s) and returns the library's error. |
| Wrapper.ExistsOf | client.go:120-128 | Exists is true exactly when there is no error and the count is 1. |
| Wrapper.Redis.Exists | client.go:120-128 | Sends EXISTS and returns ExistsOf of the reply. |
| Wrapper.NewRedisWithName | client.go:32-36 | Wraps the registry's client of that name. An unconfigured name gives Client's "not configured" error. |
| Wrapper.HashRoundTrip | client.go:46-98 | HMSet then HGetAll: when a well-tagged struct has been written and the backend returns its hash as stored, HGetAll into a zero struct of the same shape yields the original fields with no error. Times are truncated to the second and placed in DefaultLocation. The struct must have at least one field (see `Wrapper.EmptyStructNoData`). |
| Wrapper.EmptyStructNoData | client.go:46-60 | An empty struct is written as an empty hash, and reading that back gives ErrNoData, so the round trip does not hold for it. |

## Left out

- Time.UnmarshalBinary and the RFC 3339 parse: both are oracles (`Scan.TimeOracles`). The only assumption is that the binary decoder rejects input whose first byte is not a version byte (1 or 2).
- The time-zone database: a location is only a name. Daylight-saving shifts and `LoadLocation` failing (which would make DefaultLocation nil) are not modelled.
- Years outside 0–9999, negative years and the full `time.Time` representation: a time is its wall-clock reading and location.
- mapstructure:
  - its case-insensitive key matching, `squash`, unexported fields and nested structs;
  - every weak conversion except string → string, string → int and string → time;
  - the model decodes each field independently and gathers the errors, as mapstructure does.
- `ParseInt`: underscores, which Go accepts with base 0 in any integer literal (`"1_000"` reads as 1000), are rejected by the model, so such a hash value fails to decode into an int field.
- The fraction after the seconds is accepted with either `.` or `,`, as recent Go releases do.
- The JSON `Scan` helpers of the test files.
- The pass-through wrappers of client.go:100-192 other than `Set` and `Exists`. They only forward one command.
- base.go: an older duplicate of client.go, not part of this model. Its `SetEX` sends `SetXX`, not `SetEX`.
- `Ping`, `Close`, connection pools and logging.
  - The probe in `Connect` is a function from the built client to an optional message.
  - The backend of `Wrapper` is an answer oracle over the command history.
  - The go-redis value encoding of `HMSet` is reduced to `Scan.Stored`: an int as its decimal string, a string as is.
- `Registry.ClientRegistry.Connect`: the Go map iteration order is returned as a ghost sequence that enumerates the configuration names once each.
- Wrapper.NewRedisWithName: every wrapper gets its own connection object and command log. In Go, two wrappers around the same registry entry share one `*redis.Client`.
- `Client(names...)` with an empty but non-nil slice indexes out of range in Go. The model treats every empty list as "no name".
- Scan.StructToMapInterface: every `Field` stands for an exported field. `f.Interface()` (scan.go:62, 66) panics on an unexported field, and `reflect.Indirect` of a nil pointer panics; neither panic is modelled.
- The panic on a nil struct pointer passed to `HMSet` (`v.Type()` of the zero value, scan.go:57).
- `scanStruct`'s decoder-construction error (scan.go:47-50), returned when the destination is nil or not a pointer, is not modelled; the model's destination is always a struct.

=== FILE: client.dfy ===
/** The wrapper type Redis (client.go): the few methods that decide something on top of the
    Redis client library. The library and the server behind it are one abstract backend, a
    connection that logs the commands it is sent and answers each from an oracle that may
    depend on everything sent before. */
module Wrapper {
  import opened Results
  import opened Numerals
  import opened Scan
  import Registry

  // ---------------------------------------------------------------------------------------
  // Expiry constants, as time.Duration values (nanoseconds)

  const CacheWeekTTL: int := 604800 * Registry.Second
  const CacheDayTTL: int := 86400 * Registry.Second
  const CacheHourTTL: int := 3600 * Registry.Second
  const CacheMinTTL: int := 60 * Registry.Second

  /** A week is seven days, a day 24 hours, an hour 60 minutes and a minute 60 seconds; the
      longest of them is far inside a 64-bit Duration. */
  lemma TTLRelations()
    ensures CacheWeekTTL == 7 * CacheDayTTL
    ensures CacheDayTTL == 24 * CacheHourTTL
    ensures CacheHourTTL == 60 * CacheMinTTL
    ensures CacheMinTTL == 60 * Registry.Second
    ensures CacheWeekTTL <= MaxInt64
  {
  }

  // ---------------------------------------------------------------------------------------
  // The backend

  /** The commands the modelled wrappers send; an HMSet carries its values before the library
      turns them into strings, and a TTL is a Duration. */
  datatype Command =
    | HGetAllCmd(key: string)
    | HMSetCmd(key: string, values: map<string, Value>)
    | ExpireCmd(key: string, ttl: int)
    | SetCmd(key: string, value: string, ttl: int)
    | ExistsCmd(key: string)

  /** What the library hands back for a command: the hash of an HGETALL, the integer of an
      EXISTS, and the command's error (None for nil). A command reads only its own part. */
  datatype Reply = Reply(hash: map<string, string>, count: Int64, err: Option<Error>)

  /** A *redis.Client: the options it was built from, the commands sent on it so far, and the
      backend's answers. */
  class Conn {
    const spec: Registry.ClientSpec
    const answer: (seq<Command>, Command) -> Reply
    var sent: seq<Command>

    constructor (spec: Registry.ClientSpec, answer: (seq<Command>, Command) -> Reply)
      ensures this.spec == spec && this.answer == answer && sent == []
    {
      this.spec := spec;
      this.answer := answer;
      sent := [];
    }

    /** Sends one command and waits for its reply. */
    method Do(c: Command) returns (r: Reply)
      modifies this
      ensures sent == old(sent) + [c]
      ensures r == answer(old(sent), c)
    {
      r := answer(sent, c);
      sent := sent + [c];
    }
  }

  // ---------------------------------------------------------------------------------------
  // The decisions the wrappers make, as functions of the backend's replies

  /** HGetAllMap: an empty hash is reported as ErrNoData whatever error came with it, and
      only then; a non-empty hash is returned together with the library's error. */
  function NoDataRule(reply: Reply): (r: (map<string, string>, Option<Error>))
    ensures |reply.hash| == 0 <==> r == (map[], Some(ErrNoData))
    ensures |reply.hash| > 0 ==> r.0 == reply.hash && r.1 == reply.err
  {
    if |reply.hash| == 0 then (map[], Some(ErrNoData)) else (reply.hash, reply.err)
  }

  /** HGetAll: when HGetAllMap fails the destination is left as it was and the error is
      returned; otherwise the hash is decoded into it by scanStruct. */
  function HGetAllOf(reply: Reply, dest: seq<Field>, o: TimeOracles): (r: (seq<Field>, Option<Error>))
    ensures |reply.hash| == 0 ==> r == (dest, Some(ErrNoData))
    ensures |reply.hash| > 0 && reply.err.Some? ==> r == (dest, reply.err)
    ensures |reply.hash| > 0 && reply.err.None? ==> r == ScanStruct(reply.hash, dest, o)
  {
    var (data, err) := NoDataRule(reply);
    if err.Some? then (dest, err) else ScanStruct(data, dest, o)
  }

  /** Exists: true exactly when the library reports no error and a count of one. */
  function ExistsOf(reply: Reply): (b: bool)
    ensures b ==> reply.err.None? && reply.count == 1
    ensures reply.err.None? && reply.count == 1 ==> b
  {
    !(reply.err.Some? || reply.count != 1)
  }

  // ---------------------------------------------------------------------------------------
  // HMSet's argument and its normalisation to map[string]interface{}

  const InterfaceMapType := TMap("map[string]interface {}")
  const StringMapType := TMap("map[string]string")

  /** reflect.TypeOf(m), then Elem() when it is a pointer. */
  function Deref(t: GoType): GoType
  {
    if t.TPtr? then t.elem else t
  }

  /** Types HMSet accepts neither as a struct (or pointer to one) nor as one of its two maps. */
  predicate Unaccepted(t: GoType)
  {
    KindOf(Deref(t)) != StructKind && t != InterfaceMapType && t != StringMapType
  }

  type OtherType = t: GoType | Unaccepted(t) witness TInt

  /** The value handed to HMSet, as reflection sees it. */
  datatype HashArg =
    | StructArg(fields: seq<Field>)                // a struct or a pointer to a struct
    | InterfaceMapArg(values: map<string, Value>)  // a map[string]interface{}
    | StringMapArg(strings: map<string, string>)   // a map[string]string
    | OtherArg(typ: OtherType)                     // anything else

  /** A map[string]string seen as a map[string]interface{}: same keys, same strings. */
  function StringValues(ms: map<string, string>): (mm: map<string, Value>)
    ensures mm.Keys == ms.Keys
    ensures forall k :: k in ms ==> mm[k] == VStr(ms[k])
  {
    map k | k in ms :: VStr(ms[k])
  }

  /** What HMSet writes, or why it writes nothing. */
  function Normalize(arg: HashArg): (r: Result<map<string, Value>>)
    ensures r.Err? <==> arg.OtherArg?
    ensures arg.StructArg? ==> r == Ok(EncodedFields(arg.fields))
    ensures arg.StructArg? ==> r.value.Keys == set i | 0 <= i < |arg.fields| :: arg.fields[i].tag
    ensures arg.StructArg? ==> forall k :: k in r.value ==> !r.value[k].VTime?
    ensures arg.InterfaceMapArg? ==> r.value == arg.values
    ensures arg.StringMapArg? ==> r.value.Keys == arg.strings.Keys
    ensures arg.StringMapArg? ==> forall k :: k in arg.strings ==> r.value[k] == VStr(arg.strings[k])
    ensures arg.OtherArg? && KindOf(Deref(arg.typ)) == MapKind ==> r == Err(ErrNotMap)
    ensures arg.OtherArg? && KindOf(Deref(arg.typ)) != MapKind
            ==> r == Err(ErrCannotConvert(TypeString(Deref(arg.typ))))
  {
    match arg
    case StructArg(fields) =>
      EncodedKeys(fields);
      Ok(EncodedFields(fields))
    case InterfaceMapArg(m) => Ok(m)
    case StringMapArg(ms) => Ok(StringValues(ms))
    case OtherArg(t) =>
      var ref := Deref(t);
      if KindOf(ref) == MapKind then Err(ErrNotMap) else Err(ErrCannotConvert(TypeString(ref)))
  }

  /** The commands hMSet sends for one map, given the backend: the write, then the one-day
      expiry only when the write succeeded. */
  function WriteCommands(key: string, mm: map<string, Value>, history: seq<Command>,
                         answer: (seq<Command>, Command) -> Reply): (cs: seq<Command>)
    ensures 1 <= |cs| <= 2 && cs[0] == HMSetCmd(key, mm)
    ensures |cs| == 2 <==> answer(history, HMSetCmd(key, mm)).err.None?
    ensures |cs| == 2 ==> cs[1] == ExpireCmd(key, CacheDayTTL)
  {
    if answer(history, HMSetCmd(key, mm)).err.Some? then [HMSetCmd(key, mm)]
    else [HMSetCmd(key, mm), ExpireCmd(key, CacheDayTTL)]
  }

  /** The error hMSet returns: the write's, or else the expiry's. */
  function WriteError(key: string, mm: map<string, Value>, history: seq<Command>,
                      answer: (seq<Command>, Command) -> Reply): (err: Option<Error>)
    ensures answer(history, HMSetCmd(key, mm)).err.Some? ==> err == answer(history, HMSetCmd(key, mm)).err
    ensures answer(history, HMSetCmd(key, mm)).err.None?
            ==> err == answer(history + [HMSetCmd(key, mm)], ExpireCmd(key, CacheDayTTL)).err
  {
    var w := answer(history, HMSetCmd(key, mm));
    if w.err.Some? then w.err
    else answer(history + [HMSetCmd(key, mm)], ExpireCmd(key, CacheDayTTL)).err
  }

  // ---------------------------------------------------------------------------------------
  // The wrapper

  class Redis {
    const client: Conn

    /** NewRedis: wraps a client as it is. */
    constructor (client: Conn)
      ensures this.client == client
    {
      this.client := client;
    }

    method HGetAllMap(key: string) returns (data: map<string, string>, err: Option<Error>)
      modifies client
      ensures client.sent == old(client.sent) + [HGetAllCmd(key)]
      ensures (data, err) == NoDataRule(client.answer(old(client.sent), HGetAllCmd(key)))
    {
      var reply := client.Do(HGetAllCmd(key));
      if |reply.hash| == 0 {
        return map[], Some(ErrNoData);
      }
      return reply.hash, reply.err;
    }

    /** dest is the struct HGetAll decodes into; fields is what it holds afterwards. */
    method HGetAll(key: string, dest: seq<Field>, o: TimeOracles) returns (fields: seq<Field>, err: Option<Error>)
      modifies client
      ensures client.sent == old(client.sent) + [HGetAllCmd(key)]
      ensures (fields, err) == HGetAllOf(client.answer(old(client.sent), HGetAllCmd(key)), dest, o)
    {
      var info, e := HGetAllMap(key);
      if e.Some? {
        return dest, e;
      }
      var decoded := ScanStruct(info, dest, o);
      fields, err := decoded.0, decoded.1;
    }

    /** HMSet: nothing is sent when the argument is rejected; otherwise the normalised map goes
        to hMSet. */
    method HMSet(key: string, arg: HashArg) returns (err: Option<Error>)
      modifies client
      ensures Normalize(arg).Err? ==> err == Some(Normalize(arg).error) && client.sent == old(client.sent)
      ensures Normalize(arg).Ok? ==>
        && client.sent == old(client.sent) + WriteCommands(key, Normalize(arg).value, old(client.sent), client.answer)
        && err == WriteError(key, Normalize(arg).value, old(client.sent), client.answer)
    {
      var mm: map<string, Value>;
      match arg {
        case StructArg(fields) =>
          mm := StructToMapInterface(fields);
        case InterfaceMapArg(m) =>
          mm := m;
        case StringMapArg(ms) =>
          mm := CopyStrings(ms);
        case OtherArg(t) =>
          var ref := Deref(t);
          if KindOf(ref) == MapKind {
            return Some(ErrNotMap);
          }
          return Some(ErrCannotConvert(TypeString(ref)));
      }
      err := WriteWithExpiry(key, mm);
    }

    /** hMSet: the write, and the one-day expiry only after a successful write. */
    method WriteWithExpiry(key: string, mm: map<string, Value>) returns (err: Option<Error>)
      modifies client
      ensures client.sent == old(client.sent) + WriteCommands(key, mm, old(client.sent), client.answer)
      ensures err == WriteError(key, mm, old(client.sent), client.answer)
    {
      var w := client.Do(HMSetCmd(key, mm));
      if w.err.Some? {
        return w.err;
      }
      var e := client.Do(ExpireCmd(key, CacheDayTTL));
      return e.err;
    }

    /** Set: every key written this way expires after one day. */
    method Set(key: string, val: string) returns (err: Option<Error>)
      modifies client
      ensures client.sent == old(client.sent) + [SetCmd(key, val, CacheDayTTL)]
      ensures err == client.answer(old(client.sent), SetCmd(key, val, CacheDayTTL)).err
    {
      var r := client.Do(SetCmd(key, val, CacheDayTTL));
      return r.err;
    }

    method Exists(key: string) returns (b: bool)
      modifies client
      ensures client.sent == old(client.sent) + [ExistsCmd(key)]
      ensures b == ExistsOf(client.answer(old(client.sent), ExistsCmd(key)))
    {
      var r := client.Do(ExistsCmd(key));
      if r.err.Some? || r.count != 1 {
        return false;
      }
      return true;
    }
  }

  /** The range loop of HMSet that copies a map[string]string into a map[string]interface{}. */
  method CopyStrings(ms: map<string, string>) returns (mm: map<string, Value>)
    ensures mm == StringValues(ms)
  {
    mm := map[];
    var rest := ms.Keys;
    while rest != {}
      invariant rest <= ms.Keys
      invariant mm.Keys == ms.Keys - rest
      invariant forall k :: k in mm ==> mm[k] == VStr(ms[k])
      decreases rest
    {
      var k :| k in rest;
      mm := mm[k := VStr(ms[k])];
      rest := rest - {k};
    }
  }

  /** NewRedisWithName: a wrapper around the registry's client of that name, over a fresh
      connection answered by the backend; an unconfigured name is Client's error. */
  method NewRedisWithName(registry: Registry.ClientRegistry, name: string,
                          answer: (seq<Command>, Command) -> Reply) returns (r: Result<Redis>)
    ensures registry.Client([name]).Err? ==> r == Err(ErrNotConfigured(name))
    ensures registry.Client([name]).Ok? ==>
      && r.Ok? && fresh(r.value) && fresh(r.value.client)
      && r.value.client.spec == registry.clients[name]
      && r.value.client.answer == answer && r.value.client.sent == []
  {
    var spec :- registry.Client([name]);
    var conn := new Conn(spec, answer);
    var w := new Redis(conn);
    return Ok(w);
  }

  // ---------------------------------------------------------------------------------------
  // Properties across operations

  /** An empty struct is stored as an empty hash, which HGetAll reports as ErrNoData: the round
      trip needs at least one field. */
  lemma EmptyStructNoData(o: TimeOracles)
    ensures Normalize(StructArg([])) == Ok(map[])
    ensures HGetAllOf(Reply(Stored(map[]), 0, None), [], o) == ([], Some(ErrNoData))
  {
    EncodedKeys([]);
  }

  /** HMSet then HGetAll: a struct written with HMSet, whose hash the backend returns as the
      library stored it, decodes into a zero struct of the same shape as the original, times
      truncated to the second and read in DefaultLocation, with no error. */
  lemma HashRoundTrip(fields: seq<Field>, o: TimeOracles)
    requires |fields| > 0 && WellTagged(fields) && FourDigitYears(fields) && BinaryNeedsVersion(o)
    ensures Normalize(StructArg(fields)).Ok?
    ensures var reply := Reply(Stored(Normalize(StructArg(fields)).value), 0, None);
      HGetAllOf(reply, Zeroed(fields), o) == (Truncated(fields), None)
  {
    var mm := EncodedFields(fields);
    assert Normalize(StructArg(fields)) == Ok(mm);
    var hash := Stored(mm);
    assert |hash| > 0 by {
      EncodedKeys(fields);
      assert fields[0].tag in mm;
      assert fields[0].tag in hash;
    }
    assert ScanStruct(hash, Zeroed(fields), o) == (Truncated(fields), None) by {
      EncodeDecodeRoundTrip(fields, o);
    }
  }
}

=== FILE: numerals.dfy ===
/** Decimal numerals as Go writes and reads them: the zero-padded integers of the time
    package's formatter, strconv.FormatInt, and strconv.ParseInt with base 0 (the base is
    taken from a 0b, 0o, 0x or leading 0 prefix) and a bit size of 64. */
module Numerals {
  import opened Results

  const MinInt64: int := -0x8000_0000_0000_0000
  const MaxInt64: int := 0x7FFF_FFFF_FFFF_FFFF

  /** Go's int on a 64-bit platform. */
  type Int64 = x: int | MinInt64 <= x <= MaxInt64

  predicate IsDigit(c: char) { '0' <= c <= '9' }

  predicate AllDigits(s: string) { forall i :: 0 <= i < |s| ==> IsDigit(s[i]) }

  function DigitChar(d: int): (c: char)
    requires 0 <= d < 10
    ensures IsDigit(c)
  {
    ('0' as int + d) as char
  }

  function DigitValue(c: char): (d: nat)
    requires IsDigit(c)
    ensures d < 10 && DigitChar(d) == c
  {
    c as int - '0' as int
  }

  function Pow10(k: nat): (p: nat)
    ensures p >= 1
  {
    if k == 0 then 1 else 10 * Pow10(k - 1)
  }

  /** The decimal digits of n, most significant first, without leading zeros. */
  function Decimal(n: nat): (s: string)
    ensures 1 <= |s| && AllDigits(s)
  {
    if n < 10 then [DigitChar(n)] else Decimal(n / 10) + [DigitChar(n % 10)]
  }

  /** The number a string of decimal digits denotes. */
  function DecimalValue(s: string): (n: nat)
    requires AllDigits(s)
    ensures n < Pow10(|s|)
  {
    if s == [] then 0
    else
      var high := DecimalValue(s[..|s| - 1]);
      assert high <= Pow10(|s| - 1) - 1;
      high * 10 + DigitValue(s[|s| - 1])
  }

  /** The last w decimal digits of n, zero-padded to exactly w characters. */
  function FixedDigits(n: nat, w: nat): (s: string)
    ensures |s| == w && AllDigits(s)
  {
    if w == 0 then [] else FixedDigits(n / 10, w - 1) + [DigitChar(n % 10)]
  }

  function Zeros(k: nat): (s: string)
    ensures |s| == k && forall i :: 0 <= i < k ==> s[i] == '0'
  {
    seq(k, _ => '0')
  }

  /** Left-pads s with '0' up to width characters. */
  function PadZeros(s: string, width: nat): (r: string)
    ensures |r| >= width && |r| >= |s|
  {
    if |s| >= width then s else Zeros(width - |s|) + s
  }

  /** The time package's appendInt: a '-' for a negative x, then |x| in decimal, zero-padded
      to at least width digits. */
  function AppendInt(x: int, width: nat): (r: string)
    ensures |r| >= width
  {
    (if x < 0 then "-" else "") + PadZeros(Decimal(if x < 0 then -x else x), width)
  }

  /** strconv.FormatInt(x, 10): the same as appendInt without padding. */
  function FormatInt(x: int): (r: string)
    ensures 1 <= |r|
    ensures x < 0 <==> r[0] == '-'
    ensures AllDigits(if x < 0 then r[1..] else r)
  {
    AppendInt(x, 0)
  }

  /** The value of one digit in bases up to 36, as strconv reads it. */
  function BaseDigit(c: char): Option<nat>
  {
    if '0' <= c <= '9' then Some(c as int - '0' as int)
    else if 'a' <= c <= 'z' then Some(c as int - 'a' as int + 10)
    else if 'A' <= c <= 'Z' then Some(c as int - 'A' as int + 10)
    else None
  }

  /** The number s denotes in base, or None when some character is no digit of that base. */
  function DigitsValue(s: string, base: nat): Option<nat>
  {
    if s == [] then Some(0)
    else
      var high :- DigitsValue(s[..|s| - 1], base);
      var d :- BaseDigit(s[|s| - 1]);
      if d < base then Some(high * base + d) else None
  }

  /** Go's lower() on bytes: sets the 0x20 bit, so 'B' and 'b' both become 'b'. */
  predicate IsLetter(c: char, lowerCase: char)
    requires 'a' <= lowerCase <= 'z'
  {
    c == lowerCase || c as int == lowerCase as int - 32
  }

  /** strconv.ParseUint(s, 0, 64) before its range check: a "0b", "0o" or "0x" prefix (three
      characters at least) selects base 2, 8 or 16, any other leading '0' selects base 8. */
  function ParseUintBase0(s: string): Option<nat>
  {
    if s == "" then None
    else if s[0] == '0' && |s| >= 3 && IsLetter(s[1], 'b') then DigitsValue(s[2..], 2)
    else if s[0] == '0' && |s| >= 3 && IsLetter(s[1], 'o') then DigitsValue(s[2..], 8)
    else if s[0] == '0' && |s| >= 3 && IsLetter(s[1], 'x') then DigitsValue(s[2..], 16)
    else if s[0] == '0' then DigitsValue(s[1..], 8)
    else DigitsValue(s, 10)
  }

  /** strconv.ParseInt(s, 0, 64): an optional sign, then a base-0 numeral whose value must
      fit in 64 bits. Any syntax or range error is None. */
  function ParseInt(s: string): (r: Option<Int64>)
    ensures s == "" ==> r == None
    ensures r.Some? && r.value < 0 ==> s[0] == '-'
    ensures r.Some? && s[0] == '-' ==> r.value <= 0
  {
    if s == "" then None
    else
      var neg := s[0] == '-';
      var body := if s[0] == '+' || s[0] == '-' then s[1..] else s;
      var magnitude :- ParseUintBase0(body);
      var n: int := if neg then -(magnitude as int) else magnitude as int;
      if MinInt64 <= n <= MaxInt64 then Some(n) else None
  }

  // ---------------------------------------------------------------------------------------
  // Properties

  lemma {:induction false} FixedDigitsValue(n: nat, w: nat)
    requires n < Pow10(w)
    ensures DecimalValue(FixedDigits(n, w)) == n
  {
    if w > 0 {
      var s := FixedDigits(n, w);
      assert n / 10 < Pow10(w - 1);
      FixedDigitsValue(n / 10, w - 1);
      assert s[..|s| - 1] == FixedDigits(n / 10, w - 1);
    }
  }

  lemma {:induction false} ValueFixedDigits(s: string)
    requires AllDigits(s)
    ensures FixedDigits(DecimalValue(s), |s|) == s
  {
    if s != [] {
      var init := s[..|s| - 1];
      var n := DecimalValue(s);
      assert n / 10 == DecimalValue(init) && n % 10 == DigitValue(s[|s| - 1]);
      ValueFixedDigits(init);
      assert s == init + [s[|s| - 1]];
    }
  }

  lemma {:induction false} FixedDigitsOfZero(k: nat)
    ensures FixedDigits(0, k) == Zeros(k)
  {
    if k > 0 {
      FixedDigitsOfZero(k - 1);
    }
  }

  lemma {:induction false} DecimalIsFixed(n: nat, w: nat)
    requires 1 <= w && n < Pow10(w)
    ensures PadZeros(Decimal(n), w) == FixedDigits(n, w)
  {
    if n < 10 {
      FixedDigitsOfZero(w - 1);
    } else {
      assert w >= 2;
      var d := Decimal(n / 10);
      DecimalIsFixed(n / 10, w - 1);
      var c := DigitChar(n % 10);
      assert Decimal(n) == d + [c];
      if |d| < w - 1 {
        assert Zeros(w - |d| - 1) + (d + [c]) == (Zeros(w - 1 - |d|) + d) + [c];
      }
    }
  }

  /** For a value that fits, the time package's padded rendering is exactly w digits. */
  lemma AppendIntFixed(x: nat, w: nat)
    requires 1 <= w && x < Pow10(w)
    ensures AppendInt(x, w) == FixedDigits(x, w)
  {
    DecimalIsFixed(x, w);
  }

  /** A string of digits is the padded rendering of its own value at its own width. */
  lemma AppendIntOfDigits(d: string)
    requires 1 <= |d| && AllDigits(d)
    ensures AppendInt(DecimalValue(d), |d|) == d
  {
    ValueFixedDigits(d);
    AppendIntFixed(DecimalValue(d), |d|);
  }

  lemma {:induction false} DecimalDigitsValue(n: nat)
    ensures DigitsValue(Decimal(n), 10) == Some(n)
  {
    var s := Decimal(n);
    if n >= 10 {
      DecimalDigitsValue(n / 10);
      assert s[..|s| - 1] == Decimal(n / 10);
    }
  }

  lemma {:induction false} DecimalLeadingDigit(n: nat)
    requires n >= 1
    ensures Decimal(n)[0] != '0'
  {
    if n >= 10 {
      DecimalLeadingDigit(n / 10);
    }
  }

  /** strconv.ParseInt(strconv.FormatInt(n, 10), 0, 64) gives n back for every 64-bit n. */
  lemma FormatParseInt(n: Int64)
    ensures ParseInt(FormatInt(n)) == Some(n)
  {
    var m: nat := if n < 0 then -(n as int) else n as int;
    var d := Decimal(m);
    assert ParseUintBase0(d) == Some(m) by {
      DecimalDigitsValue(m);
      if m >= 1 {
        DecimalLeadingDigit(m);
      } else {
        assert d == "0";
      }
    }
    if n < 0 {
      assert FormatInt(n) == "-" + d;
      ParseNegative(d, m);
    } else {
      assert FormatInt(n) == d;
      ParseNonNegative(d, m);
    }
  }

  lemma ParseNegative(d: string, m: nat)
    requires ParseUintBase0(d) == Some(m) && m <= -MinInt64
    ensures ParseInt("-" + d) == Some(-(m as int))
  {
    var s := "-" + d;
    assert s[0] == '-' && s[1..] == d;
  }

  lemma ParseNonNegative(d: string, m: nat)
    requires ParseUintBase0(d) == Some(m) && m <= MaxInt64
    requires 1 <= |d| && IsDigit(d[0])
    ensures ParseInt(d) == Some(m)
  {
  }
}

=== FILE: registry.dfy ===
/** The named-client registry of redis.go: the configuration record, its translation into the
    options of a direct or a sentinel (failover) client, Connect, which rebuilds the registry
    from a set of named configurations, and Client, the lookup by name. */
module Registry {
  import opened Results
  import opened Numerals

  /** Config: one named connection as the application configures it. Numeric fields are Go ints;
      timeouts are in seconds. */
  datatype Config = Config(
    server: string,
    password: string,
    db: Int64,
    maxRetries: Int64,
    dialTimeout: Int64,
    readTimeout: Int64,
    writeTimeout: Int64,
    masterName: string,
    sentinelAddrs: string,
    sentinelUsername: string,
    sentinelPassword: string)

  // ---------------------------------------------------------------------------------------
  // time.Duration arithmetic

  const TwoTo64: int := 0x1_0000_0000_0000_0000

  /** time.Second in nanoseconds. */
  const Second: int := 1_000_000_000

  /** Two's-complement wrap-around of a 64-bit signed product. */
  function Wrap64(x: int): (r: Int64)
    ensures (r - x) % TwoTo64 == 0
    ensures MinInt64 <= x <= MaxInt64 ==> r == x
  {
    (x - MinInt64) % TwoTo64 + MinInt64
  }

  /** time.Duration(n) * time.Second: n seconds in nanoseconds, wrapping like Go's int64. */
  function Seconds(n: Int64): (d: Int64)
    ensures MinInt64 <= n * Second <= MaxInt64 ==> d == n * Second
    ensures (d - n * Second) % TwoTo64 == 0
  {
    Wrap64(n * Second)
  }

  /** A timeout of more than 9223372036 seconds does not fit: the first such value wraps to a
      negative duration, and larger ones wrap modulo 2^64, some of them back to positive. */
  lemma SecondsWraps()
    ensures Seconds(9223372037) == 9223372037 * Second - TwoTo64
    ensures Seconds(9223372037) < 0
    ensures Seconds(9223372036) == 9223372036 * Second
    ensures Seconds(18446744074) == 290448384
  {
  }

  // ---------------------------------------------------------------------------------------
  // strings.Split / strings.Join with a one-character separator

  function Count(s: string, sep: char): nat
  {
    if s == "" then 0 else (if s[0] == sep then 1 else 0) + Count(s[1..], sep)
  }

  /** strings.Split(s, string(sep)): the maximal separator-free pieces; the empty string gives
      one empty piece. */
  function Split(s: string, sep: char): (parts: seq<string>)
    ensures |parts| == Count(s, sep) + 1
    ensures forall i :: 0 <= i < |parts| ==> sep !in parts[i]
  {
    if s == "" then [""]
    else
      var rest := Split(s[1..], sep);
      if s[0] == sep then [""] + rest
      else [[s[0]] + rest[0]] + rest[1..]
  }

  /** strings.Join(parts, sep). */
  function Join(parts: seq<string>, sep: string): string
  {
    if |parts| == 0 then ""
    else if |parts| == 1 then parts[0]
    else parts[0] + sep + Join(parts[1..], sep)
  }

  /** Splitting loses nothing: joining the pieces with the separator gives the string back. */
  lemma {:induction false} JoinSplit(s: string, sep: char)
    ensures Join(Split(s, sep), [sep]) == s
  {
    if s != "" {
      var rest := Split(s[1..], sep);
      JoinSplit(s[1..], sep);
      if s[0] == sep {
        assert Split(s, sep) == [""] + rest;
        assert ([""] + rest)[1..] == rest;
      } else {
        var parts := Split(s, sep);
        if |rest| == 1 {
          assert parts == [[s[0]] + rest[0]];
        } else {
          assert parts[1..] == rest[1..];
          assert Join(rest, [sep]) == rest[0] + [sep] + Join(rest[1..], [sep]);
        }
      }
    }
  }

  // ---------------------------------------------------------------------------------------
  // Client options and the two opaque constructors

  /** redis.Options as newRedis fills it; a zero numeric field means "the library default". */
  datatype Options = Options(
    addr: string,
    password: string,
    db: Int64,
    maxRetries: Int64,
    dialTimeout: Int64,
    readTimeout: Int64,
    writeTimeout: Int64)

  /** redis.FailoverOptions as newRedis fills it. */
  datatype FailoverOptions = FailoverOptions(
    masterName: string,
    sentinelAddrs: seq<string>,
    sentinelUsername: string,
    sentinelPassword: string,
    password: string,
    db: Int64,
    maxRetries: Int64,
    dialTimeout: Int64,
    readTimeout: Int64,
    writeTimeout: Int64)

  /** A *redis.Client, identified by the options it was built from. */
  datatype ClientSpec = Direct(options: Options) | Failover(failover: FailoverOptions)
  {
    function MaxRetries(): Int64
    {
      match this
      case Direct(o) => o.maxRetries
      case Failover(f) => f.maxRetries
    }

    function DialTimeout(): Int64
    {
      match this
      case Direct(o) => o.dialTimeout
      case Failover(f) => f.dialTimeout
    }

    function ReadTimeout(): Int64
    {
      match this
      case Direct(o) => o.readTimeout
      case Failover(f) => f.readTimeout
    }

    function WriteTimeout(): Int64
    {
      match this
      case Direct(o) => o.writeTimeout
      case Failover(f) => f.writeTimeout
    }

    function Password(): string
    {
      match this
      case Direct(o) => o.password
      case Failover(f) => f.password
    }

    function DB(): Int64
    {
      match this
      case Direct(o) => o.db
      case Failover(f) => f.db
    }
  }

  /** Open(addr, options...): a client at addr whose options the configurators adjust in turn. */
  function Open(addr: string, configure: seq<Options -> Options>): (c: ClientSpec)
    ensures c.Direct?
  {
    var start := Options(addr, "", 0, 0, 0, 0, 0);
    Direct(ApplyAll(start, configure))
  }

  function ApplyAll(o: Options, configure: seq<Options -> Options>): Options
    decreases |configure|
  {
    if configure == [] then o else ApplyAll(configure[0](o), configure[1..])
  }

  /** OpenSentinel(options): a failover client whose zero options the configurator fills. */
  function OpenSentinel(configure: FailoverOptions -> FailoverOptions): (c: ClientSpec)
    ensures c.Failover?
  {
    Failover(configure(FailoverOptions("", [], "", "", "", 0, 0, 0, 0, 0)))
  }

  /** A positive configured value replaces the option; anything else keeps it. */
  function Positive(configured: Int64, current: Int64): Int64
  {
    if configured > 0 then configured else current
  }

  /** A positive configured number of seconds replaces the timeout; anything else keeps it. */
  function PositiveSeconds(configured: Int64, current: Int64): Int64
  {
    if configured > 0 then Seconds(configured) else current
  }

  /** The configurator newRedis hands to OpenSentinel. */
  function SentinelOptions(conf: Config, o: FailoverOptions): FailoverOptions
  {
    o.(masterName := conf.masterName,
       sentinelAddrs := Split(conf.sentinelAddrs, ','),
       sentinelPassword := conf.sentinelPassword,
       sentinelUsername := conf.sentinelUsername,
       password := conf.password,
       db := conf.db,
       maxRetries := Positive(conf.maxRetries, o.maxRetries),
       dialTimeout := PositiveSeconds(conf.dialTimeout, o.dialTimeout),
       readTimeout := PositiveSeconds(conf.readTimeout, o.readTimeout),
       writeTimeout := PositiveSeconds(conf.writeTimeout, o.writeTimeout))
  }

  /** The configurator newRedis hands to Open. */
  function DirectOptions(conf: Config, o: Options): Options
  {
    o.(password := conf.password,
       db := conf.db,
       maxRetries := Positive(conf.maxRetries, o.maxRetries),
       dialTimeout := PositiveSeconds(conf.dialTimeout, o.dialTimeout),
       readTimeout := PositiveSeconds(conf.readTimeout, o.readTimeout),
       writeTimeout := PositiveSeconds(conf.writeTimeout, o.writeTimeout))
  }

  /** newRedis: a sentinel client when a master name is configured, a direct client at the
      server address otherwise. */
  function NewRedis(conf: Config): (c: ClientSpec)
    ensures c.Failover? <==> conf.masterName != ""
    ensures c.Direct? ==> c.options.addr == conf.server
  {
    if conf.masterName != "" then
      OpenSentinel(o => SentinelOptions(conf, o))
    else
      Open(conf.server, [o => DirectOptions(conf, o)])
  }

  /** What the two constructors do with newRedis's configurators: start from zero options
      (the direct one at the server address) and apply them once. */
  lemma NewRedisBuilds(conf: Config)
    ensures conf.masterName != "" ==>
      NewRedis(conf) == Failover(SentinelOptions(conf, FailoverOptions("", [], "", "", "", 0, 0, 0, 0, 0)))
    ensures conf.masterName == "" ==>
      NewRedis(conf) == Direct(DirectOptions(conf, Options(conf.server, "", 0, 0, 0, 0, 0)))
  {
    if conf.masterName == "" {
      var f := (o: Options) => DirectOptions(conf, o);
      var start := Options(conf.server, "", 0, 0, 0, 0, 0);
      assert [f][1..] == [];
      assert ApplyAll(start, [f]) == ApplyAll(f(start), []);
    }
  }

  /** The kind of client newRedis builds: sentinel iff a master name is present; a direct
      client connects to the configured server; a sentinel client gets the master name and one
      sentinel address more than there are commas, none containing a comma. */
  lemma NewRedisKind(conf: Config)
    ensures NewRedis(conf).Failover? <==> conf.masterName != ""
    ensures NewRedis(conf).Direct? ==> NewRedis(conf).options.addr == conf.server
    ensures NewRedis(conf).Failover? ==>
      && NewRedis(conf).failover.masterName == conf.masterName
      && NewRedis(conf).failover.sentinelUsername == conf.sentinelUsername
      && NewRedis(conf).failover.sentinelPassword == conf.sentinelPassword
      && |NewRedis(conf).failover.sentinelAddrs| == Count(conf.sentinelAddrs, ',') + 1
      && Join(NewRedis(conf).failover.sentinelAddrs, ",") == conf.sentinelAddrs
      && (forall a :: a in NewRedis(conf).failover.sentinelAddrs ==> ',' !in a)
  {
    NewRedisBuilds(conf);
    JoinSplit(conf.sentinelAddrs, ',');
  }

  /** Numeric options: a value > 0 overrides, anything else leaves the library default (zero);
      timeouts become that many seconds, exactly when the product fits in 64 bits. Password and
      DB are always copied. */
  lemma NewRedisTuning(conf: Config)
    ensures var c := NewRedis(conf);
      && c.Password() == conf.password && c.DB() == conf.db
      && (conf.maxRetries > 0 ==> c.MaxRetries() == conf.maxRetries)
      && (conf.maxRetries <= 0 ==> c.MaxRetries() == 0)
      && (conf.dialTimeout <= 0 ==> c.DialTimeout() == 0)
      && (conf.readTimeout <= 0 ==> c.ReadTimeout() == 0)
      && (conf.writeTimeout <= 0 ==> c.WriteTimeout() == 0)
      && (0 < conf.dialTimeout ==> c.DialTimeout() == Seconds(conf.dialTimeout))
      && (0 < conf.readTimeout ==> c.ReadTimeout() == Seconds(conf.readTimeout))
      && (0 < conf.writeTimeout ==> c.WriteTimeout() == Seconds(conf.writeTimeout))
      && (0 < conf.dialTimeout && conf.dialTimeout * Second <= MaxInt64 ==>
            c.DialTimeout() == conf.dialTimeout * Second)
      && (0 < conf.readTimeout && conf.readTimeout * Second <= MaxInt64 ==>
            c.ReadTimeout() == conf.readTimeout * Second)
      && (0 < conf.writeTimeout && conf.writeTimeout * Second <= MaxInt64 ==>
            c.WriteTimeout() == conf.writeTimeout * Second)
  {
    NewRedisBuilds(conf);
  }

  /** A configured timeout of 9223372037 seconds reaches the client as a negative duration. */
  lemma OverflowingTimeout(conf: Config)
    requires conf.dialTimeout == 9223372037
    ensures NewRedis(conf).DialTimeout() < 0
  {
    NewRedisTuning(conf);
    SecondsWraps();
  }

  // ---------------------------------------------------------------------------------------
  // Connect and Client

  /** How Connect ends: normally, or with log.Fatal and the joined error list. */
  datatype Outcome = Connected | Fatal(message: string)

  /** The clients that a Connect leaves installed: every configuration whose probe
      succeeded, under its own name. */
  function Installed(configs: map<string, Config>, probe: ClientSpec -> Option<string>): map<string, ClientSpec>
  {
    InstalledAmong(configs, configs.Keys, probe)
  }

  /** The installed clients once the names in done have been visited. */
  function InstalledAmong(configs: map<string, Config>, done: set<string>,
                          probe: ClientSpec -> Option<string>): (m: map<string, ClientSpec>)
    ensures m.Keys <= done
  {
    map n | n in done && n in configs && probe(NewRedis(configs[n])).None? :: NewRedis(configs[n])
  }

  lemma InstalledStep(configs: map<string, Config>, done: set<string>,
                      probe: ClientSpec -> Option<string>, name: string)
    requires name in configs
    ensures var before := InstalledAmong(configs, done, probe);
      InstalledAmong(configs, done + {name}, probe)
        == if probe(NewRedis(configs[name])).None? then before[name := NewRedis(configs[name])] else before
  {
  }

  /** The messages one probe contributes: its error, if any. */
  function ProbeFailure(result: Option<string>): seq<string>
  {
    match result
    case Some(m) => [m]
    case None => []
  }

  /** errs after the names in order have been visited: each failed probe appends its message. */
  function AppendFailures(errs: seq<string>, configs: map<string, Config>, order: seq<string>,
                          probe: ClientSpec -> Option<string>): seq<string>
    requires forall i :: 0 <= i < |order| ==> order[i] in configs
  {
    if order == [] then errs
    else
      AppendFailures(errs, configs, order[..|order| - 1], probe)
        + ProbeFailure(probe(NewRedis(configs[order[|order| - 1]])))
  }

  lemma FailureStep(errs: seq<string>, configs: map<string, Config>, order: seq<string>,
                    probe: ClientSpec -> Option<string>, name: string)
    requires forall i :: 0 <= i < |order| ==> order[i] in configs
    requires name in configs
    ensures AppendFailures(errs, configs, order + [name], probe)
         == AppendFailures(errs, configs, order, probe) + ProbeFailure(probe(NewRedis(configs[name])))
  {
    assert (order + [name])[..|order|] == order;
  }

  /** Earlier messages are kept: the visit only appends. */
  lemma {:induction false} AppendFailuresKeeps(errs: seq<string>, configs: map<string, Config>,
                                               order: seq<string>, probe: ClientSpec -> Option<string>)
    requires forall i :: 0 <= i < |order| ==> order[i] in configs
    ensures AppendFailures(errs, configs, order, probe)
         == errs + AppendFailures([], configs, order, probe)
  {
    if order != [] {
      var init := order[..|order| - 1];
      AppendFailuresKeeps(errs, configs, init, probe);
      var m := ProbeFailure(probe(NewRedis(configs[order[|order| - 1]])));
      assert errs + AppendFailures([], configs, init, probe) + m
          == errs + (AppendFailures([], configs, init, probe) + m);
    }
  }

  /** What log.Fatal prints at the end of Connect. */
  function FatalMessage(errs: seq<string>): string
  {
    "[redis] " + Join(errs, "\n")
  }

  /** Nothing is appended exactly when every visited configuration's probe succeeded. */
  lemma NoFailuresIff(errs: seq<string>, configs: map<string, Config>,
                      order: seq<string>, probe: ClientSpec -> Option<string>)
    requires forall i :: 0 <= i < |order| ==> order[i] in configs
    ensures AppendFailures(errs, configs, order, probe) == errs
        <==> forall i :: 0 <= i < |order| ==> probe(NewRedis(configs[order[i]])).None?
  {
    AppendFailuresKeeps(errs, configs, order, probe);
    NoFailuresFromEmpty(configs, order, probe);
    var added := AppendFailures([], configs, order, probe);
    assert errs + added == errs ==> |added| == 0;
  }

  lemma {:induction false} NoFailuresFromEmpty(configs: map<string, Config>, order: seq<string>,
                                               probe: ClientSpec -> Option<string>)
    requires forall i :: 0 <= i < |order| ==> order[i] in configs
    ensures AppendFailures([], configs, order, probe) == []
        <==> forall i :: 0 <= i < |order| ==> probe(NewRedis(configs[order[i]])).None?
  {
    if order != [] {
      var init := order[..|order| - 1];
      var last := order[|order| - 1];
      NoFailuresFromEmpty(configs, init, probe);
      assert AppendFailures([], configs, order, probe)
          == AppendFailures([], configs, init, probe) + ProbeFailure(probe(NewRedis(configs[last])));
      if forall i :: 0 <= i < |order| ==> probe(NewRedis(configs[order[i]])).None? {
        forall i | 0 <= i < |init|
          ensures probe(NewRedis(configs[init[i]])).None?
        {
          assert init[i] == order[i];
        }
      }
      if && (forall i :: 0 <= i < |init| ==> probe(NewRedis(configs[init[i]])).None?)
         && probe(NewRedis(configs[last])).None? {
        forall i | 0 <= i < |order|
          ensures probe(NewRedis(configs[order[i]])).None?
        {
          if i < |init| {
            assert order[i] == init[i];
          }
        }
      }
    }
  }

  /** Every visited configuration whose probe failed contributes its message. */
  lemma {:induction false} FailureRecorded(errs: seq<string>, configs: map<string, Config>,
                                           order: seq<string>, probe: ClientSpec -> Option<string>, i: nat)
    requires forall j :: 0 <= j < |order| ==> order[j] in configs
    requires i < |order| && probe(NewRedis(configs[order[i]])).Some?
    ensures probe(NewRedis(configs[order[i]])).value in AppendFailures(errs, configs, order, probe)
  {
    if i < |order| - 1 {
      FailureRecorded(errs, configs, order[..|order| - 1], probe, i);
    }
  }

  /** The registry of named clients (redisList) and the accumulated error list (errs). */
  class ClientRegistry {
    var clients: map<string, ClientSpec>
    var errs: seq<string>

    /** The package's initial state: no clients, no errors. */
    constructor ()
      ensures clients == map[] && errs == []
    {
      clients := map[];
      errs := [];
    }

    /** Connect: empties the registry, then builds and probes a client per configuration in
        some order; a failed probe appends its message to errs, a successful one installs a
        fresh client under the name. It ends fatally iff errs, including messages left from
        earlier calls, is non-empty. `order` is the map iteration order Go chose. */
    method Connect(configs: map<string, Config>, probe: ClientSpec -> Option<string>)
      returns (outcome: Outcome, ghost order: seq<string>)
      modifies this
      ensures Enumerates(order, configs.Keys, configs)
      ensures clients == Installed(configs, probe)
      ensures errs == AppendFailures(old(errs), configs, order, probe)
      ensures outcome == if errs == [] then Connected else Fatal(FatalMessage(errs))
    {
      clients := map[];
      ghost var prior := errs;
      ghost var done: set<string> := {};
      var remaining := configs.Keys;
      order := [];
      while remaining != {}
        invariant forall n :: n in remaining <==> n in configs && n !in done
        invariant Enumerates(order, done, configs)
        invariant clients == InstalledAmong(configs, done, probe)
        invariant errs == AppendFailures(prior, configs, order, probe)
        decreases remaining
      {
        var name :| name in remaining;
        var conf := configs[name];
        var r := NewRedis(conf);
        InstalledStep(configs, done, probe, name);
        EnumeratesStep(order, done, configs, name);
        FailureStep(prior, configs, order, probe, name);
        match probe(r) {
          case Some(message) =>
            errs := errs + [message];
          case None =>
            var client := NewRedis(conf);
            // The branch that replaces and closes a handle already under this name is never
            // taken: the registry was emptied and configuration names are distinct map keys.
            assert name !in clients;
            clients := clients[name := client];
        }
        remaining := remaining - {name};
        done := done + {name};
        order := order + [name];
      }
      assert done == configs.Keys;
      outcome := if errs == [] then Connected else Fatal(FatalMessage(errs));
    }

    /** Client(name...): the client under the first name given, or under "default" when no name
        is given; a name absent from the registry is the panic "not configured". */
    function Client(names: seq<string>): (r: Result<ClientSpec>)
      reads this
      ensures r.Ok? <==> ClientKey(names) in clients
      ensures r.Ok? ==> r.value == clients[ClientKey(names)]
      ensures r.Err? ==> r.error == ErrNotConfigured(ClientKey(names))
    {
      var key := ClientKey(names);
      if key in clients then Ok(clients[key]) else Err(ErrNotConfigured(key))
    }
  }

  /** The registry key a Client call looks up. */
  function ClientKey(names: seq<string>): string
  {
    if |names| == 0 then "default" else names[0]
  }

  /** order lists the names of done, each once, all of them configured. */
  ghost predicate Enumerates(order: seq<string>, done: set<string>, configs: map<string, Config>)
  {
    && (forall i :: 0 <= i < |order| ==> order[i] in done && order[i] in configs)
    && (forall n :: n in done ==> n in order)
    && (forall i, j :: 0 <= i < j < |order| ==> order[i] != order[j])
  }

  lemma EnumeratesStep(order: seq<string>, done: set<string>, configs: map<string, Config>, name: string)
    requires Enumerates(order, done, configs)
    requires name in configs && name !in done
    ensures Enumerates(order + [name], done + {name}, configs)
  {
  }

  /** Only the first name matters, and no name means "default". */
  lemma ClientFirstNameOnly(reg: ClientRegistry, names: seq<string>)
    ensures |names| > 0 ==> reg.Client(names) == reg.Client([names[0]])
    ensures reg.Client([]) == reg.Client(["default"])
  {
  }

  /** After Connect, a lookup succeeds exactly for the names whose probe succeeded, and yields
      the client newRedis builds from that name's configuration. */
  lemma ClientAfterConnect(reg: ClientRegistry, configs: map<string, Config>,
                           probe: ClientSpec -> Option<string>, name: string)
    requires reg.clients == Installed(configs, probe)
    ensures reg.Client([name]).Ok? <==> name in configs && probe(NewRedis(configs[name])).None?
    ensures reg.Client([name]).Ok? ==> reg.Client([name]).value == NewRedis(configs[name])
  {
  }
}

=== FILE: results.dfy ===
/** Failure-compatible wrappers and the error values the package can produce. */
module Results {

  datatype Option<+T> = None | Some(value: T) {
    predicate IsFailure() { None? }

    function PropagateFailure<U>(): Option<U>
      requires None?
    {
      None
    }

    function Extract(): T
      requires Some?
    {
      value
    }
  }

  /** Every error of the package, including the panic on an unknown client name; the fatal
      end of Connect is the separate Registry.Outcome. */
  datatype Error =
    | ErrNoData                          // ErrNoData, "data is empty"
    | ErrNotConfigured(name: string)     // Client panics: the client `name` is not configured
    | ErrTimeParse(value: string)        // a time string matching no accepted form
    | ErrIntParse(value: string)         // a string that is no integer of 64 bits
    | ErrDecode(errors: seq<Error>)      // the decoder's aggregate of per-field errors
    | ErrNotMap                          // HMSet: a map that is neither of the two accepted types
    | ErrCannotConvert(typeName: string) // HMSet: a value of any other kind
    | ErrBackend(message: string)        // an error returned by the Redis client library

  datatype Result<+T> = Ok(value: T) | Err(error: Error) {
    predicate IsFailure() { Err? }

    function PropagateFailure<U>(): Result<U>
      requires Err?
    {
      Err(error)
    }

    function Extract(): T
      requires Ok?
    {
      value
    }
  }
}

=== FILE: scan.dfy ===
/** Struct <-> hash marshaling (scan.go): DecodeHook, the string -> time decision used when a
    hash is decoded into a struct; scanStruct, the decoder configuration that applies it; and
    structToMapInterface, which turns a struct into the map written by HMSet. */
module Scan {
  import opened Results
  import opened Numerals
  import opened TimeLayout

  /** ScanTagName: the struct tag that names a field's hash key. */
  const ScanTagName := "db"

  /** DefaultLocation: the zone in which text times are parsed. */
  const DefaultLocation := "Asia/Shanghai"

  /** The field values the model covers: Go int, string and time.Time. */
  datatype Value = VInt(i: Int64) | VStr(s: string) | VTime(t: Time)

  /** A struct field: its Go name, the value of its `db` tag ("" when the tag is absent, as
      reflect's Tag.Get returns) and its current value. */
  datatype Field = Field(name: string, tag: string, value: Value)

  /** reflect.Kind, as far as the package looks at it. */
  datatype Kind = IntKind | StringKind | StructKind | PtrKind | MapKind

  /** reflect.Type, as far as the package looks at it. */
  datatype GoType = TInt | TString | TStruct(name: string) | TPtr(elem: GoType) | TMap(name: string)

  function KindOf(t: GoType): Kind
  {
    match t
    case TInt => IntKind
    case TString => StringKind
    case TStruct(_) => StructKind
    case TPtr(_) => PtrKind
    case TMap(_) => MapKind
  }

  /** reflect.Type.String(). */
  function TypeString(t: GoType): string
  {
    match t
    case TInt => "int"
    case TString => "string"
    case TStruct(name) => name
    case TPtr(elem) => "*" + TypeString(elem)
    case TMap(name) => name
  }

  const TimeType := TStruct("time.Time")

  function TypeOf(v: Value): GoType
  {
    match v
    case VInt(_) => TInt
    case VStr(_) => TString
    case VTime(_) => TimeType
  }

  /** The two time decoders DecodeHook calls but this model does not define: Time.UnmarshalBinary
      and time.ParseInLocation with the RFC 3339 layout (section 5.6 of RFC 3339) in a given
      location. None is a failure. */
  datatype TimeOracles = TimeOracles(
    unmarshalBinary: string -> Option<Time>,
    parseRFC3339: (string, string) -> Option<Time>)

  /** Time.UnmarshalBinary fails on empty input and on input whose first byte is not one of the
      encoding's version bytes (1 or 2). */
  ghost predicate BinaryNeedsVersion(o: TimeOracles)
  {
    forall s :: (|s| == 0 || (s[0] != 1 as char && s[0] != 2 as char)) ==> o.unmarshalBinary(s) == None
  }

  /** The condition under which DecodeHook acts: the source kind is string, the target kind is
      struct and the target's type string is "time.Time" or "*time.Time". */
  predicate Hooks(from: GoType, to: GoType)
  {
    && KindOf(from) == StringKind
    && KindOf(to) == StructKind
    && (TypeString(to) == "time.Time" || TypeString(to) == "*time.Time")
  }

  /** DecodeHook: for a string bound for a time, the binary form first; failing that the RFC 3339
      layout if the string contains a 'T', the "2006-01-02 15:04:05" layout otherwise, both in
      DefaultLocation. Everything else passes through unchanged. */
  function DecodeHook(from: GoType, to: GoType, v: Value, o: TimeOracles): (r: Result<Value>)
    requires from == TypeOf(v)
    ensures !Hooks(from, to) ==> r == Ok(v)
    ensures Hooks(from, to) && r.Ok? ==> r.value.VTime?
    ensures Hooks(from, to) && r.Err? ==> r.error == ErrTimeParse(v.s)
  {
    if KindOf(from) == StringKind && KindOf(to) == StructKind then
      if TypeString(to) == "time.Time" || TypeString(to) == "*time.Time" then
        var ss := v.s;
        match o.unmarshalBinary(ss)
        case Some(t) => Ok(VTime(t))
        case None =>
          var parsed := if 'T' in ss then o.parseRFC3339(ss, DefaultLocation)
                        else ParseInLocation(ss, DefaultLocation);
          match parsed
          case Some(t) => Ok(VTime(t))
          case None => Err(ErrTimeParse(ss))
      else Ok(v)
    else Ok(v)
  }

  /** A successful binary decoding is final: no text layout is tried. */
  lemma BinaryDecodingWins(ss: string, o: TimeOracles, t: Time)
    requires o.unmarshalBinary(ss) == Some(t)
    ensures DecodeHook(TString, TimeType, VStr(ss), o) == Ok(VTime(t))
  {
  }

  /** Layout selection once the binary form has failed: RFC 3339 iff the string contains 'T';
      the fixed layout otherwise, whose result is always in DefaultLocation. */
  lemma TextLayoutChoice(ss: string, o: TimeOracles)
    requires o.unmarshalBinary(ss) == None
    ensures var r := DecodeHook(TString, TimeType, VStr(ss), o);
      && ('T' in ss ==> (r.Ok? <==> o.parseRFC3339(ss, DefaultLocation).Some?))
      && ('T' in ss && r.Ok? ==> r.value.t == o.parseRFC3339(ss, DefaultLocation).value)
      && ('T' !in ss ==> (r.Ok? <==> ParseInLocation(ss, DefaultLocation).Some?))
      && ('T' !in ss && r.Ok? ==> r.value.t.location == DefaultLocation)
  {
  }

  /** A pointer-to-time target has kind Ptr, not Struct, so the "*time.Time" comparison in the
      hook never matches and such a target passes through untouched. */
  lemma PointerTargetPassesThrough(v: Value, o: TimeOracles)
    requires v.VStr?
    ensures DecodeHook(TString, TPtr(TimeType), v, o) == Ok(v)
  {
  }

  lemma {:induction false} FormattedStartsWithDigit(t: Time)
    requires 0 <= t.year < 10000
    ensures Canonical(Format(t)) && IsDigit(Format(t)[0]) && 'T' !in Format(t)
  {
    FormatCanonical(t);
    var s := Format(t);
    assert IsDigit(s[0..4][0]);
    CanonicalHasNoT(s);
  }

  lemma CanonicalHasNoT(s: string)
    requires Canonical(s)
    ensures 'T' !in s
  {
    forall i | 0 <= i < |s|
      ensures s[i] != 'T'
    {
      if i < 4 { assert s[i] == s[0..4][i]; }
      else if 5 <= i < 7 { assert s[i] == s[5..7][i - 5]; }
      else if 8 <= i < 10 { assert s[i] == s[8..10][i - 8]; }
      else if 11 <= i < 13 { assert s[i] == s[11..13][i - 11]; }
      else if 14 <= i < 16 { assert s[i] == s[14..16][i - 14]; }
      else if 17 <= i { assert s[i] == s[17..19][i - 17]; }
    }
  }

  /** time -> string -> time through the hook: a formatted time decodes to the same wall clock,
      truncated to the second, in DefaultLocation. */
  lemma DecodeFormatted(t: Time, o: TimeOracles)
    requires BinaryNeedsVersion(o) && 0 <= t.year < 10000
    ensures DecodeHook(TString, TimeType, VStr(Format(t)), o)
         == Ok(VTime(WholeSeconds(t, DefaultLocation)))
  {
    FormattedStartsWithDigit(t);
    assert o.unmarshalBinary(Format(t)) == None;
    FixedLayoutPath(Format(t), o);
    FormatThenParse(t, DefaultLocation);
  }

  /** string -> time -> string through the hook: a canonical string decodes to a time that
      formats back to the same string. */
  lemma DecodedFormatsBack(ss: string, o: TimeOracles)
    requires BinaryNeedsVersion(o) && Canonical(ss)
    ensures var r := DecodeHook(TString, TimeType, VStr(ss), o);
      r.Ok? ==> Format(r.value.t) == ss
  {
    assert IsDigit(ss[0..4][0]);
    assert o.unmarshalBinary(ss) == None;
    CanonicalHasNoT(ss);
    FixedLayoutPath(ss, o);
    var p := ParseInLocation(ss, DefaultLocation);
    if p.Some? {
      ParseThenFormat(ss, DefaultLocation, p.value);
    }
  }

  lemma FixedLayoutPath(ss: string, o: TimeOracles)
    requires o.unmarshalBinary(ss) == None && 'T' !in ss
    ensures var p := ParseInLocation(ss, DefaultLocation);
      DecodeHook(TString, TimeType, VStr(ss), o)
        == if p.Some? then Ok(VTime(p.value)) else Err(ErrTimeParse(ss))
  {
  }

  /** The value of scan_test.go: "2015-03-18 18:20:28" decodes to that wall clock in
      DefaultLocation and formats back to the same string. */
  lemma ScanTestCreateTime(o: TimeOracles)
    requires BinaryNeedsVersion(o)
    ensures DecodeHook(TString, TimeType, VStr("2015-03-18 18:20:28"), o)
         == Ok(VTime(DateTime(2015, 3, 18, 18, 20, 28, 0, DefaultLocation)))
    ensures Format(DateTime(2015, 3, 18, 18, 20, 28, 0, DefaultLocation)) == "2015-03-18 18:20:28"
  {
    var t: Time := DateTime(2015, 3, 18, 18, 20, 28, 0, DefaultLocation);
    FormatOf2015();
    DecodeFormatted(t, o);
  }

  lemma FormatOf2015()
    ensures Format(DateTime(2015, 3, 18, 18, 20, 28, 0, DefaultLocation)) == "2015-03-18 18:20:28"
  {
    Fields2015();
  }

  /** The five rendered fields of the example. */
  lemma Fields2015()
    ensures AppendInt(2015, 4) == "2015" && AppendInt(3, 2) == "03" && AppendInt(18, 2) == "18"
    ensures AppendInt(20, 2) == "20" && AppendInt(28, 2) == "28"
  {
  }

  // ---------------------------------------------------------------------------------------
  // structToMapInterface

  /** What structToMapInterface stores for one field value: a time as its
      "2006-01-02 15:04:05" text, any other value unchanged. */
  function Encode(v: Value): (r: Value)
    ensures !r.VTime?
    ensures !v.VTime? ==> r == v
    ensures v.VTime? ==> r == VStr(Format(v.t))
  {
    match v
    case VTime(t) => VStr(Format(t))
    case _ => v
  }

  /** The map structToMapInterface builds: fields written in order under their tags, a later
      field overwriting an earlier one with the same tag. It never holds a time. */
  function EncodedFields(fields: seq<Field>): (m: map<string, Value>)
    ensures forall k :: k in m ==> !m[k].VTime?
  {
    if fields == [] then map[]
    else
      var last := fields[|fields| - 1];
      EncodedFields(fields[..|fields| - 1])[last.tag := Encode(last.value)]
  }

  method StructToMapInterface(fields: seq<Field>) returns (rs: map<string, Value>)
    ensures rs == EncodedFields(fields)
  {
    rs := map[];
    for i := 0 to |fields|
      invariant rs == EncodedFields(fields[..i])
    {
      var f := fields[i];
      var n := f.tag;
      match f.value {
        case VTime(t) =>
          rs := rs[n := VStr(Format(t))];
        case _ =>
          rs := rs[n := f.value];
      }
      assert fields[..i + 1][..i] == fields[..i];
    }
    assert fields[..|fields|] == fields;
  }

  /** One entry per distinct tag: the keys are exactly the fields' tags (an absent tag is ""). */
  lemma {:induction false} EncodedKeys(fields: seq<Field>)
    ensures EncodedFields(fields).Keys == set i | 0 <= i < |fields| :: fields[i].tag
  {
    if fields != [] {
      var init := fields[..|fields| - 1];
      EncodedKeys(init);
      var tags := set i | 0 <= i < |fields| :: fields[i].tag;
      var initTags := set i | 0 <= i < |init| :: init[i].tag;
      assert tags == initTags + {fields[|fields| - 1].tag} by {
        forall k | k in tags ensures k in initTags + {fields[|fields| - 1].tag} {
          var i :| 0 <= i < |fields| && fields[i].tag == k;
          if i < |init| { assert init[i].tag == k; }
        }
        forall k | k in initTags ensures k in tags {
          var i :| 0 <= i < |init| && init[i].tag == k;
          assert fields[i].tag == k;
        }
      }
    }
  }

  /** The entry under a field's tag is that field's encoded value when no later field has the
      same tag. */
  lemma {:induction false} EncodedLastWins(fields: seq<Field>, i: nat)
    requires i < |fields|
    requires forall j :: i < j < |fields| ==> fields[j].tag != fields[i].tag
    ensures fields[i].tag in EncodedFields(fields)
    ensures EncodedFields(fields)[fields[i].tag] == Encode(fields[i].value)
  {
    if i < |fields| - 1 {
      var init := fields[..|fields| - 1];
      assert init[i] == fields[i];
      EncodedLastWins(init, i);
    }
  }

  /** The example of scan_test.go: 2019-11-02 15:04:05 UTC is stored as "2019-11-02 15:04:05". */
  lemma EncodeTestTime()
    ensures Encode(VTime(DateTime(2019, 11, 2, 15, 4, 5, 0, "UTC"))) == VStr("2019-11-02 15:04:05")
  {
    FormatOf2019();
  }

  lemma FormatOf2019()
    ensures Format(DateTime(2019, 11, 2, 15, 4, 5, 0, "UTC")) == "2019-11-02 15:04:05"
  {
    Fields2019();
  }

  /** The six rendered fields of the example. */
  lemma Fields2019()
    ensures AppendInt(2019, 4) == "2019" && AppendInt(11, 2) == "11" && AppendInt(2, 2) == "02"
    ensures AppendInt(15, 2) == "15" && AppendInt(4, 2) == "04" && AppendInt(5, 2) == "05"
  {
    Date2019();
  }

  /** The year, month and day of the example. */
  lemma Date2019()
    ensures AppendInt(2019, 4) == "2019" && AppendInt(11, 2) == "11" && AppendInt(2, 2) == "02"
  {
  }

  // ---------------------------------------------------------------------------------------
  // scanStruct: mapstructure with TagName "db", WeaklyTypedInput and DecodeHook

  /** strings.SplitN(tag, ",", 2)[0]: the tag up to its first comma. */
  function BeforeComma(s: string): (r: string)
    ensures |r| <= |s|
  {
    if s == "" || s[0] == ',' then "" else [s[0]] + BeforeComma(s[1..])
  }

  lemma {:induction false} BeforeCommaNoComma(s: string)
    requires ',' !in s
    ensures BeforeComma(s) == s
  {
    if s != "" {
      assert ',' !in s[1..] by {
        forall i | 0 <= i < |s[1..]| ensures s[1..][i] != ',' { assert s[1..][i] == s[i + 1]; }
      }
      BeforeCommaNoComma(s[1..]);
    }
  }

  /** The key the decoder looks a field up by: its tag up to the first comma, or, when that is
      empty, the field's Go name. */
  function DecodeKey(f: Field): string
  {
    var t := BeforeComma(f.tag);
    if t != "" then t else f.name
  }

  /** Decoding one hash string into a field of target's type: the DecodeHook first, then the
      weak conversion (a string for a string field; strconv.ParseInt with base 0 for an int
      field, the empty string counting as "0"; the hook's time for a time field). */
  function DecodeValue(s: string, target: Value, o: TimeOracles): (r: Result<Value>)
    ensures r.Ok? ==> TypeOf(r.value) == TypeOf(target)
    ensures target.VStr? ==> r == Ok(VStr(s))
    ensures target.VInt? ==> (r.Ok? <==> ParseInt(if s == "" then "0" else s).Some?)
    ensures target.VInt? && r.Ok? ==> r.value == VInt(ParseInt(if s == "" then "0" else s).value)
    ensures target.VInt? && r.Err? ==> r.error == ErrIntParse(s)
    ensures target.VTime? ==> r == DecodeHook(TString, TypeOf(target), VStr(s), o)
  {
    var hooked :- DecodeHook(TString, TypeOf(target), VStr(s), o);
    match target
    case VStr(_) => Ok(hooked)
    case VInt(_) =>
      var str := hooked.s;
      (match ParseInt(if str == "" then "0" else str)
       case Some(n) => Ok(VInt(n))
       case None => Err(ErrIntParse(str)))
    case VTime(_) => Ok(hooked)
  }

  /** scan_test.go: the decimal string "123123" fills an int field with 123123. */
  lemma DecodeDecimalIntoInt(n: Int64, current: Int64, o: TimeOracles)
    ensures DecodeValue(FormatInt(n), VInt(current), o) == Ok(VInt(n))
  {
    FormatParseInt(n);
    assert FormatInt(n) != "";
  }

  /** Weak typing reads the empty string as 0 and honours base prefixes: "0x10" is 16. */
  lemma DecodeWeakInts(current: Int64, o: TimeOracles)
    ensures DecodeValue("", VInt(current), o) == Ok(VInt(0))
    ensures DecodeValue("0x10", VInt(current), o) == Ok(VInt(16))
  {
    assert ParseInt("0") == Some(0) by {
      assert "0"[1..] == "";
    }
    assert ParseInt("0x10") == Some(16) by {
      assert "0x10"[2..] == "10" && "10"[..1] == "1" && "1"[..0] == "";
      assert DigitsValue("10", 16) == Some(16);
    }
  }

  datatype Decoded = Decoded(field: Field, err: Option<Error>)

  /** One field: left as it is when its key is absent or its value fails to decode. */
  function DecodeField(src: map<string, string>, f: Field, o: TimeOracles): (r: Decoded)
    ensures r.field.name == f.name && r.field.tag == f.tag
    ensures TypeOf(r.field.value) == TypeOf(f.value)
    ensures DecodeKey(f) !in src ==> r == Decoded(f, None)
    ensures r.err.Some? ==> r.field == f
    ensures DecodeKey(f) in src && DecodeValue(src[DecodeKey(f)], f.value, o).Ok? ==>
      r == Decoded(f.(value := DecodeValue(src[DecodeKey(f)], f.value, o).value), None)
    ensures DecodeKey(f) in src && DecodeValue(src[DecodeKey(f)], f.value, o).Err? ==>
      r == Decoded(f, Some(DecodeValue(src[DecodeKey(f)], f.value, o).error))
  {
    var key := DecodeKey(f);
    if key !in src then Decoded(f, None)
    else
      match DecodeValue(src[key], f.value, o)
      case Ok(v) => Decoded(f.(value := v), None)
      case Err(e) => Decoded(f, Some(e))
  }

  datatype ScanResult = ScanResult(fields: seq<Field>, errors: seq<Error>)

  /** One outcome's error, if any, as a list. */
  function Failure(d: Decoded): seq<Error>
  {
    if d.err.Some? then [d.err.value] else []
  }

  /** The errors of the fields that failed, in field order. */
  function ErrorsOf(ds: seq<Decoded>): (e: seq<Error>)
    ensures |e| <= |ds|
    ensures e == [] <==> forall i :: 0 <= i < |ds| ==> ds[i].err.None?
    ensures forall i :: 0 <= i < |ds| && ds[i].err.Some? ==> ds[i].err.value in e
  {
    if ds == [] then []
    else
      var rest := ErrorsOf(ds[1..]);
      assert forall i :: 1 <= i < |ds| ==> ds[i] == ds[1..][i - 1];
      Failure(ds[0]) + rest
  }

  /** Splitting the outcomes after any position splits their errors at the same point. */
  lemma {:induction false} ErrorsOfAppend(a: seq<Decoded>, b: seq<Decoded>)
    ensures ErrorsOf(a + b) == ErrorsOf(a) + ErrorsOf(b)
  {
    if a == [] {
      assert a + b == b;
    } else {
      var ab := a + b;
      assert ab[0] == a[0] && ab[1..] == a[1..] + b;
      calc {
        ErrorsOf(ab);
        Failure(a[0]) + ErrorsOf(a[1..] + b);
        { ErrorsOfAppend(a[1..], b); }
        Failure(a[0]) + (ErrorsOf(a[1..]) + ErrorsOf(b));
        ErrorsOf(a) + ErrorsOf(b);
      }
    }
  }

  /** The last outcome's error, if any, comes last. */
  lemma ErrorsOfLast(ds: seq<Decoded>)
    requires ds != []
    ensures ErrorsOf(ds) == ErrorsOf(ds[..|ds| - 1]) + Failure(ds[|ds| - 1])
  {
    var front, d := ds[..|ds| - 1], ds[|ds| - 1];
    assert ds == front + [d];
    ErrorsOfAppend(front, [d]);
    assert ErrorsOf([d]) == Failure(d) + ErrorsOf([]);
  }

  /** The fields' outcomes gathered in order: every field as decoded, and the errors of the
      fields that failed. */
  function Collect(ds: seq<Decoded>): (r: ScanResult)
    ensures |r.fields| == |ds|
    ensures forall i :: 0 <= i < |ds| ==> r.fields[i] == ds[i].field
    ensures r.errors == ErrorsOf(ds)
  {
    if ds == [] then ScanResult([], [])
    else
      var init := Collect(ds[..|ds| - 1]);
      var d := ds[|ds| - 1];
      var fields := init.fields + [d.field];
      assert forall i :: 0 <= i < |ds| ==> fields[i] == ds[i].field by {
        forall i | 0 <= i < |ds| ensures fields[i] == ds[i].field {
          if i < |ds| - 1 {
            assert ds[..|ds| - 1][i] == ds[i];
          }
        }
      }
      ErrorsOfLast(ds);
      ScanResult(fields, init.errors + Failure(d))
  }

  /** Each destination field's outcome, in field order. */
  function Outcomes(src: map<string, string>, dest: seq<Field>, o: TimeOracles): (ds: seq<Decoded>)
    ensures |ds| == |dest|
    ensures forall i :: 0 <= i < |dest| ==> ds[i] == DecodeField(src, dest[i], o)
  {
    seq(|dest|, i requires 0 <= i < |dest| => DecodeField(src, dest[i], o))
  }

  /** Every field is decoded independently, in order, and the errors are collected. */
  function ScanFields(src: map<string, string>, dest: seq<Field>, o: TimeOracles): (r: ScanResult)
    ensures |r.fields| == |dest|
    ensures forall i :: 0 <= i < |dest| ==> r.fields[i] == DecodeField(src, dest[i], o).field
    ensures r.errors == ErrorsOf(Outcomes(src, dest, o))
    ensures r.errors == [] <==> forall i :: 0 <= i < |dest| ==> DecodeField(src, dest[i], o).err.None?
  {
    Collect(Outcomes(src, dest, o))
  }

  /** scanStruct(src, dest): the struct after decoding (fields that failed keep their value)
      and the decoder's error, the aggregate of every field error, or none. */
  function ScanStruct(src: map<string, string>, dest: seq<Field>, o: TimeOracles): (r: (seq<Field>, Option<Error>))
    ensures |r.0| == |dest|
    ensures forall i :: 0 <= i < |dest| ==> r.0[i] == DecodeField(src, dest[i], o).field
    ensures r.1.None? <==> forall i :: 0 <= i < |dest| ==> DecodeField(src, dest[i], o).err.None?
    ensures r.1.Some? ==> r.1 == Some(ErrDecode(ErrorsOf(Outcomes(src, dest, o))))
    ensures r.1.Some? ==> |r.1.value.errors| > 0
  {
    var r := ScanFields(src, dest, o);
    (r.fields, if r.errors == [] then None else Some(ErrDecode(r.errors)))
  }

  /** Fields are matched by key: two hashes that agree on every field's decoder key decode
      alike, whatever other keys they hold. */
  lemma ScanIgnoresOtherKeys(src: map<string, string>, other: map<string, string>, dest: seq<Field>, o: TimeOracles)
    requires forall i :: 0 <= i < |dest| ==> (DecodeKey(dest[i]) in src <==> DecodeKey(dest[i]) in other)
    requires forall i :: 0 <= i < |dest| && DecodeKey(dest[i]) in src ==>
      src[DecodeKey(dest[i])] == other[DecodeKey(dest[i])]
    ensures ScanStruct(src, dest, o) == ScanStruct(other, dest, o)
  {
    assert Outcomes(src, dest, o) == Outcomes(other, dest, o);
  }

  // ---------------------------------------------------------------------------------------
  // The round trip struct -> hash -> struct

  /** How the Redis client writes an HMSet value into the hash: an int in decimal, a string as it
      is. (Encoded maps hold no times.) */
  function WireString(v: Value): string
    requires !v.VTime?
  {
    match v
    case VInt(n) => FormatInt(n)
    case VStr(s) => s
  }

  /** The hash an HMSet of the encoded map leaves behind. */
  function Stored(m: map<string, Value>): (h: map<string, string>)
    requires forall k :: k in m ==> !m[k].VTime?
    ensures h.Keys == m.Keys
    ensures forall k :: k in m ==> h[k] == WireString(m[k])
  {
    map k | k in m :: WireString(m[k])
  }

  /** Tags present, comma-free and distinct, as the marshaling convention assumes. */
  predicate WellTagged(fields: seq<Field>)
  {
    && (forall i :: 0 <= i < |fields| ==> fields[i].tag != "" && ',' !in fields[i].tag)
    && (forall i, j :: 0 <= i < j < |fields| ==> fields[i].tag != fields[j].tag)
  }

  /** The fixed layout writes and reads four-digit years. */
  predicate FourDigitYears(fields: seq<Field>)
  {
    forall i :: 0 <= i < |fields| && fields[i].value.VTime? ==> 0 <= fields[i].value.t.year < 10000
  }

  function ZeroValue(v: Value): Value
  {
    match v
    case VInt(_) => VInt(0)
    case VStr(_) => VStr("")
    case VTime(_) => VTime(DateTime(1, 1, 1, 0, 0, 0, 0, "UTC"))
  }

  /** A zero-valued struct of the same shape. */
  function Zeroed(fields: seq<Field>): (z: seq<Field>)
    ensures |z| == |fields|
  {
    seq(|fields|, i requires 0 <= i < |fields| => fields[i].(value := ZeroValue(fields[i].value)))
  }

  /** What survives the round trip of a value: a time loses its sub-second part and is read
      back in DefaultLocation. */
  function Truncate(v: Value): Value
  {
    match v
    case VTime(t) => VTime(WholeSeconds(t, DefaultLocation))
    case _ => v
  }

  function Truncated(fields: seq<Field>): (r: seq<Field>)
    ensures |r| == |fields|
  {
    seq(|fields|, i requires 0 <= i < |fields| => fields[i].(value := Truncate(fields[i].value)))
  }

  /** One value through the hash: its stored string decodes, into a zero value of its own
      type, to the value itself (a time truncated to the second, in DefaultLocation). */
  lemma DecodeStored(v: Value, o: TimeOracles)
    requires BinaryNeedsVersion(o)
    requires v.VTime? ==> 0 <= v.t.year < 10000
    ensures DecodeValue(WireString(Encode(v)), ZeroValue(v), o) == Ok(Truncate(v))
  {
    match v {
      case VInt(n) =>
        DecodeDecimalIntoInt(n, 0, o);
      case VStr(s) =>
      case VTime(t) =>
        DecodeFormatted(t, o);
    }
  }

  lemma RoundTripField(fields: seq<Field>, i: nat, o: TimeOracles)
    requires WellTagged(fields) && FourDigitYears(fields) && BinaryNeedsVersion(o)
    requires i < |fields|
    ensures var src := Stored(EncodedFields(fields));
      DecodeField(src, Zeroed(fields)[i], o) == Decoded(Truncated(fields)[i], None)
  {
    var f := fields[i];
    var src := Stored(EncodedFields(fields));
    BeforeCommaNoComma(f.tag);
    EncodedLastWins(fields, i);
    assert src[f.tag] == WireString(Encode(f.value));
    DecodeStored(f.value, o);
    assert Zeroed(fields)[i] == f.(value := ZeroValue(f.value));
  }

  /** struct -> hash -> struct: decoding the stored hash of a well-tagged struct into a zero
      struct of the same shape reproduces every field, times truncated to the second and read
      in DefaultLocation, without error. */
  lemma EncodeDecodeRoundTrip(fields: seq<Field>, o: TimeOracles)
    requires WellTagged(fields) && FourDigitYears(fields) && BinaryNeedsVersion(o)
    ensures ScanStruct(Stored(EncodedFields(fields)), Zeroed(fields), o) == (Truncated(fields), None)
  {
    var src := Stored(EncodedFields(fields));
    forall i | 0 <= i < |fields|
      ensures DecodeField(src, Zeroed(fields)[i], o) == Decoded(Truncated(fields)[i], None)
    {
      RoundTripField(fields, i, o);
    }
    ScanAllDecoded(src, Zeroed(fields), o, Truncated(fields));
  }

  /** When every field decodes without error, scanStruct reports no error and yields the
      decoded fields. */
  lemma ScanAllDecoded(src: map<string, string>, dest: seq<Field>, o: TimeOracles, want: seq<Field>)
    requires |want| == |dest|
    requires forall i :: 0 <= i < |dest| ==> DecodeField(src, dest[i], o) == Decoded(want[i], None)
    ensures ScanStruct(src, dest, o) == (want, None)
  {
    var r := ScanFields(src, dest, o);
    assert r.fields == want;
  }
}

=== FILE: time_layout.dfy ===
/** Go time values and the one text layout the package fixes, "2006-01-02 15:04:05"
    (YYYY-MM-DD HH:MM:SS): Time.Format and time.ParseInLocation restricted to that layout. */
module TimeLayout {
  import opened Results
  import opened Numerals

  /** A time.Time seen as its wall-clock reading in a named location. */
  datatype DateTime = DateTime(
    year: int, month: int, day: int,
    hour: int, minute: int, second: int, nanosecond: int,
    location: string)

  predicate IsLeap(year: int)
  {
    year % 4 == 0 && (year % 100 != 0 || year % 400 == 0)
  }

  function DaysIn(month: int, year: int): int
    requires 1 <= month <= 12
  {
    if month == 2 then (if IsLeap(year) then 29 else 28)
    else if month == 4 || month == 6 || month == 9 || month == 11 then 30
    else 31
  }

  /** The readings a time.Time can have: an existing calendar day and an in-range clock. */
  predicate Valid(t: DateTime)
  {
    && 1 <= t.month <= 12
    && 1 <= t.day <= DaysIn(t.month, t.year)
    && 0 <= t.hour < 24
    && 0 <= t.minute < 60
    && 0 <= t.second < 60
    && 0 <= t.nanosecond < 1_000_000_000
  }

  /** Go's zero time.Time: January 1 of year 1, 00:00:00 UTC. */
  type Time = t: DateTime | Valid(t) witness DateTime(1, 1, 1, 0, 0, 0, 0, "UTC")

  /** The same wall-clock reading without its sub-second part, read in location loc. */
  function WholeSeconds(t: Time, loc: string): Time
  {
    t.(nanosecond := 0, location := loc)
  }

  /** t.Format("2006-01-02 15:04:05"): the wall clock in t's own location, whole seconds,
      no zone designator. */
  function Format(t: Time): (s: string)
    ensures |s| >= 19
  {
    Layout(AppendInt(t.year, 4), AppendInt(t.month, 2), AppendInt(t.day, 2),
           AppendInt(t.hour, 2), AppendInt(t.minute, 2), AppendInt(t.second, 2))
  }

  /** The layout's literal separators around the six rendered fields. */
  function Layout(y: string, mo: string, d: string, h: string, mi: string, se: string): string
  {
    y + "-" + mo + "-" + d + " " + h + ":" + mi + ":" + se
  }

  // ---------------------------------------------------------------------------------------
  // ParseInLocation for the same layout, step by step as Go's parser consumes the value.

  /** getnum: one or two leading digits; exactly two when fixed. */
  function GetNum(s: string, fixed: bool): Option<(nat, string)>
  {
    if |s| == 0 || !IsDigit(s[0]) then None
    else if |s| == 1 || !IsDigit(s[1]) then
      (if fixed then None else Some((DigitValue(s[0]), s[1..])))
    else Some((DecimalValue(s[..2]), s[2..]))
  }

  /** A literal character of the layout must appear as is. */
  function Expect(s: string, c: char): Option<string>
  {
    if |s| > 0 && s[0] == c then Some(s[1..]) else None
  }

  function CutSpace(s: string): string
  {
    if |s| > 0 && s[0] == ' ' then CutSpace(s[1..]) else s
  }

  /** A space of the layout matches any run of spaces in the value. */
  function SkipSpace(s: string): Option<string>
  {
    if |s| > 0 && s[0] != ' ' then None else Some(CutSpace(s))
  }

  function LeadingDigits(s: string): (n: nat)
    ensures n <= |s| && AllDigits(s[..n])
  {
    if |s| > 0 && IsDigit(s[0]) then
      var n := 1 + LeadingDigits(s[1..]);
      assert s[..n] == [s[0]] + s[1..][..n - 1];
      n
    else 0
  }

  /** The fractional second Go accepts after the seconds even though the layout has none:
      a '.' or ',' then digits, of which the first nine count, scaled to nanoseconds (the
      digits read as if padded with zeros to nine). */
  function Fraction(s: string): (r: (nat, string))
    ensures r.0 < 1_000_000_000
  {
    if |s| >= 2 && (s[0] == '.' || s[0] == ',') && IsDigit(s[1]) then
      var n := 1 + LeadingDigits(s[1..]);
      var k := if n > 10 then 9 else n - 1;
      var nine := s[1..][..k] + Zeros(9 - k);
      assert AllDigits(nine) by { PaddedDigits(s[1..], n - 1, k); }
      assert Pow10(9) == 1_000_000_000;
      (DecimalValue(nine), s[n..])
    else (0, s)
  }

  lemma PaddedDigits(s: string, n: nat, k: nat)
    requires k <= n <= |s| && k <= 9 && AllDigits(s[..n])
    ensures AllDigits(s[..k] + Zeros(9 - k))
  {
    var p := s[..k] + Zeros(9 - k);
    forall i | 0 <= i < 9
      ensures IsDigit(p[i])
    {
      if i < k {
        assert p[i] == s[..n][i];
      }
    }
  }

  /** time.ParseInLocation("2006-01-02 15:04:05", value, loc): None is a parse error. */
  function ParseInLocation(value: string, loc: string): (r: Option<Time>)
    ensures r.Some? ==> r.value.location == loc && 0 <= r.value.year < 10000
  {
    if |value| < 4 || !AllDigits(value[..4]) then None
    else
      var year := DecimalValue(value[..4]);
      assert year < 10000 by { assert Pow10(4) == 10000; }
      ParseAfterYear(year, value[4..], loc)
  }

  /** The rest of the layout, "-01-02 15:04:05", after a four-digit year. */
  function ParseAfterYear(year: int, value: string, loc: string): (r: Option<Time>)
    ensures r.Some? ==> r.value.location == loc && r.value.year == year
  {
    var v1 :- Expect(value, '-');
    var pm :- GetNum(v1, true);
    var (month, v2) := pm;
    if month < 1 || 12 < month then None
    else
      var v3 :- Expect(v2, '-');
      var pd :- GetNum(v3, true);
      var (day, v4) := pd;
      var v5 :- SkipSpace(v4);
      ParseClock(year, month, day, v5, loc)
  }

  /** The clock part, "15:04:05", then the optional fraction; the day is checked against
      the month last, as Go does once the whole value is read. */
  function ParseClock(year: int, month: int, day: int, value: string, loc: string): (r: Option<Time>)
    requires 1 <= month <= 12
    ensures r.Some? ==> r.value.location == loc && r.value.year == year
    ensures r.Some? ==> r.value.month == month && r.value.day == day
  {
    var ph :- GetNum(value, false);
    var (hour, v6) := ph;
    if 24 <= hour then None
    else
      var v7 :- Expect(v6, ':');
      var pmin :- GetNum(v7, true);
      var (minute, v8) := pmin;
      if 60 <= minute then None
      else
        var v9 :- Expect(v8, ':');
        var ps :- GetNum(v9, true);
        var (second, v10) := ps;
        if 60 <= second then None
        else
          var (nanos, rest) := Fraction(v10);
          if rest != "" then None
          else if day < 1 || DaysIn(month, year) < day then None
          else Some(DateTime(year, month, day, hour, minute, second, nanos, loc))
  }

  // ---------------------------------------------------------------------------------------
  // The canonical form and the round trips between Format and ParseInLocation.

  /** Exactly the shape Format produces for a four-digit year. */
  predicate Canonical(s: string)
  {
    && |s| == 19
    && s[4] == '-' && s[7] == '-' && s[10] == ' ' && s[13] == ':' && s[16] == ':'
    && AllDigits(s[0..4]) && AllDigits(s[5..7]) && AllDigits(s[8..10])
    && AllDigits(s[11..13]) && AllDigits(s[14..16]) && AllDigits(s[17..19])
  }

  /** The reading a canonical string spells, whole seconds, in location loc. */
  function Spelled(s: string, loc: string): DateTime
    requires Canonical(s)
  {
    DateTime(DecimalValue(s[0..4]), DecimalValue(s[5..7]), DecimalValue(s[8..10]),
             DecimalValue(s[11..13]), DecimalValue(s[14..16]), DecimalValue(s[17..19]), 0, loc)
  }

  lemma TwoDigits(s: string, k: nat, fixed: bool)
    requires k + 2 <= |s| && AllDigits(s[k..k + 2])
    ensures GetNum(s[k..], fixed) == Some((DecimalValue(s[k..k + 2]), s[k + 2..]))
  {
    assert s[k..][..2] == s[k..k + 2];
    assert s[k..][2..] == s[k + 2..];
  }

  lemma ParseCanonical(s: string, loc: string)
    requires Canonical(s)
    ensures ParseInLocation(s, loc) == if Valid(Spelled(s, loc)) then Some(Spelled(s, loc)) else None
  {
    var t := Spelled(s, loc);
    assert s[..4] == s[0..4];
    assert Expect(s[4..], '-') == Some(s[5..]);
    TwoDigits(s, 5, true);
    if 1 <= t.month <= 12 {
      assert Expect(s[7..], '-') == Some(s[8..]);
      TwoDigits(s, 8, true);
      assert SkipSpace(s[10..]) == Some(s[11..]) by {
        assert s[10..][1..] == s[11..];
        assert IsDigit(s[11..13][0]);
        assert CutSpace(s[11..]) == s[11..];
      }
      ClockCanonical(s, loc, t.year, t.month, t.day);
    }
  }

  lemma ClockCanonical(s: string, loc: string, year: int, month: int, day: int)
    requires Canonical(s) && 1 <= month <= 12
    requires year == DecimalValue(s[0..4]) && month == DecimalValue(s[5..7]) && day == DecimalValue(s[8..10])
    ensures ParseClock(year, month, day, s[11..], loc)
      == if Valid(Spelled(s, loc)) then Some(Spelled(s, loc)) else None
  {
    TwoDigits(s, 11, false);
    assert Expect(s[13..], ':') == Some(s[14..]);
    TwoDigits(s, 14, true);
    assert Expect(s[16..], ':') == Some(s[17..]);
    TwoDigits(s, 17, true);
    assert s[19..] == "";
  }

  lemma TwoDigitField(x: int)
    requires 0 <= x < 100
    ensures AppendInt(x, 2) == FixedDigits(x, 2) && DecimalValue(FixedDigits(x, 2)) == x
  {
    AppendIntFixed(x, 2);
    FixedDigitsValue(x, 2);
  }

  /** Where each field and separator sits in a layout of a four-digit and five two-digit fields. */
  lemma LayoutPositions(y: string, mo: string, d: string, h: string, mi: string, se: string)
    requires |y| == 4 && |mo| == 2 && |d| == 2 && |h| == 2 && |mi| == 2 && |se| == 2
    ensures var s := Layout(y, mo, d, h, mi, se);
      && |s| == 19
      && s[0..4] == y && s[5..7] == mo && s[8..10] == d
      && s[11..13] == h && s[14..16] == mi && s[17..19] == se
      && s[4] == '-' && s[7] == '-' && s[10] == ' ' && s[13] == ':' && s[16] == ':'
  {
    var p1 := y + "-";
    var p2 := p1 + mo;
    var p3 := p2 + "-";
    var p4 := p3 + d;
    var p5 := p4 + " ";
    var p6 := p5 + h;
    var p7 := p6 + ":";
    var p8 := p7 + mi;
    var p9 := p8 + ":";
    var s := p9 + se;
    assert s == Layout(y, mo, d, h, mi, se);
    assert s[0..4] == y by { assert s[..|p9|][0..4] == p9[0..4]; }
    assert s[5..7] == mo by { assert s[..|p9|][5..7] == p9[5..7]; }
    assert s[8..10] == d by { assert s[..|p9|][8..10] == p9[8..10]; }
    assert s[11..13] == h by { assert s[..|p9|][11..13] == p9[11..13]; }
    assert s[14..16] == mi by { assert s[..|p9|][14..16] == p9[14..16]; }
  }

  /** A canonical string is the layout of its own fields. */
  lemma LayoutOfCanonical(s: string)
    requires Canonical(s)
    ensures Layout(s[0..4], s[5..7], s[8..10], s[11..13], s[14..16], s[17..19]) == s
  {
    var l := Layout(s[0..4], s[5..7], s[8..10], s[11..13], s[14..16], s[17..19]);
    LayoutPositions(s[0..4], s[5..7], s[8..10], s[11..13], s[14..16], s[17..19]);
    forall i | 0 <= i < 19
      ensures l[i] == s[i]
    {
      if i < 4 { assert l[0..4][i] == s[0..4][i]; }
      else if 5 <= i < 7 { assert l[5..7][i - 5] == s[5..7][i - 5]; }
      else if 8 <= i < 10 { assert l[8..10][i - 8] == s[8..10][i - 8]; }
      else if 11 <= i < 13 { assert l[11..13][i - 11] == s[11..13][i - 11]; }
      else if 14 <= i < 16 { assert l[14..16][i - 14] == s[14..16][i - 14]; }
      else if 17 <= i { assert l[17..19][i - 17] == s[17..19][i - 17]; }
    }
  }

  /** Format of a four-digit year is canonical and spells the reading back. */
  lemma FormatCanonical(t: Time)
    requires 0 <= t.year < 10000
    ensures Canonical(Format(t)) && Spelled(Format(t), t.location) == t.(nanosecond := 0)
  {
    var y, mo, d := FixedDigits(t.year, 4), FixedDigits(t.month, 2), FixedDigits(t.day, 2);
    var h, mi, se := FixedDigits(t.hour, 2), FixedDigits(t.minute, 2), FixedDigits(t.second, 2);
    var s := Format(t);
    assert s == Layout(y, mo, d, h, mi, se) by { FormatIsLayout(t); }
    LayoutPositions(y, mo, d, h, mi, se);
    assert DecimalValue(y) == t.year by {
      assert Pow10(4) == 10000;
      FixedDigitsValue(t.year, 4);
    }
    assert DecimalValue(mo) == t.month by { TwoDigitField(t.month); }
    assert DecimalValue(d) == t.day by { TwoDigitField(t.day); }
    assert DecimalValue(h) == t.hour by { TwoDigitField(t.hour); }
    assert DecimalValue(mi) == t.minute by { TwoDigitField(t.minute); }
    assert DecimalValue(se) == t.second by { TwoDigitField(t.second); }
  }

  /** Every field of a four-digit-year time renders at exactly its layout width. */
  lemma FormatIsLayout(t: Time)
    requires 0 <= t.year < 10000
    ensures Format(t) == Layout(FixedDigits(t.year, 4), FixedDigits(t.month, 2), FixedDigits(t.day, 2),
                                FixedDigits(t.hour, 2), FixedDigits(t.minute, 2), FixedDigits(t.second, 2))
  {
    assert AppendInt(t.year, 4) == FixedDigits(t.year, 4) by {
      assert Pow10(4) == 10000;
      AppendIntFixed(t.year, 4);
    }
    assert AppendInt(t.month, 2) == FixedDigits(t.month, 2) by { TwoDigitField(t.month); }
    assert AppendInt(t.day, 2) == FixedDigits(t.day, 2) by { TwoDigitField(t.day); }
    assert AppendInt(t.hour, 2) == FixedDigits(t.hour, 2) by { TwoDigitField(t.hour); }
    assert AppendInt(t.minute, 2) == FixedDigits(t.minute, 2) by { TwoDigitField(t.minute); }
    assert AppendInt(t.second, 2) == FixedDigits(t.second, 2) by { TwoDigitField(t.second); }
  }

  /** time -> string -> time: parsing a formatted four-digit-year time in loc gives the same
      wall clock, truncated to the second, in loc. */
  lemma FormatThenParse(t: Time, loc: string)
    requires 0 <= t.year < 10000
    ensures ParseInLocation(Format(t), loc) == Some(WholeSeconds(t, loc))
  {
    FormatCanonical(t);
    ParseCanonical(Format(t), loc);
    assert Spelled(Format(t), loc) == WholeSeconds(t, loc);
  }

  /** string -> time -> string: a successfully parsed value formats back to itself exactly
      when it was already in canonical form (one space, two-digit hour, no fraction). */
  lemma ParseThenFormat(s: string, loc: string, t: Time)
    requires ParseInLocation(s, loc) == Some(t)
    ensures Format(t) == s <==> Canonical(s)
  {
    FormatCanonical(t);
    if Canonical(s) {
      ParseCanonical(s, loc);
      FormatSpelled(s, loc);
    }
  }

  /** A canonical string is the format of the reading it spells. */
  lemma FormatSpelled(s: string, loc: string)
    requires Canonical(s) && Valid(Spelled(s, loc))
    ensures Format(Spelled(s, loc)) == s
  {
    AppendIntOfDigits(s[0..4]);
    AppendIntOfDigits(s[5..7]);
    AppendIntOfDigits(s[8..10]);
    AppendIntOfDigits(s[11..13]);
    AppendIntOfDigits(s[14..16]);
    AppendIntOfDigits(s[17..19]);
    LayoutOfCanonical(s);
  }
}
